=== FILE: README.md ===
# Koral query serializer and metadata builder, modelled in Dafny

This project models the orchestration core of the Koral query translator. That core has two parts.

**The metadata builder (`MetaQueryBuilder`)** keeps two things:
- an insertion-ordered map of metadata entries, such as `startIndex`, `startPage`, `count` and `cutOff`;
- an optional span context.

The span context is set in one of two ways. It can be given directly as sizes and units. It can also be parsed from a specification string, which takes one of two forms:
- a preset name starting with `s` or `p`, such as `sentence` or `paragraph`, kept verbatim;
- a composite `size-unit,size-unit`, such as `3-token, 5-char`. Its whitespace is removed and it is split on `,` and on `-`.

`raw()` puts the context into the map under `context`. A window becomes `{left: [unit, size], right: [unit, size]}`. A preset becomes its string.

**The query serializer (`QuerySerializer`)** has three jobs:
- It picks a grammar translator for a query-language tag, in `setQuery` and in `run`.
- It keeps three more things: the translator's request map, the caller's metadata (`addMeta`), and the collection filter with its `errors`/`warnings`/`messages` lists (`setCollection`).
- It merges all of these into one response map in `raw()`/`build()`.

Modules, one per file:

| file | module | contents |
|---|---|---|
| `wrappers.dfy` | `Wrappers` | `Option` and `Result` |
| `ordered_map.dfy` | `OrderedMap` | Java's `LinkedHashMap` as an association list: `Get`, `Put`, `PutAll`, and the lemmas relating them to mathematical maps |
| `java_strings.dfy` | `JavaStrings` | `replaceAll("\\s+","")`, `split` with a one-character delimiter, `Integer.valueOf`, `toLowerCase`, `equalsIgnoreCase` |
| `json.dfy` | `Json` | the values the maps hold: `null`, integers, booleans, strings, lists and nested maps |
| `meta_query_builder.dfy` | `MetaQueryBuilder` | the builder |
| `query_serializer.dfy` | `QuerySerializer` | the serializer |

Modelling decisions:
- **Mutation.** Every mutating Java method becomes a pure function from the old state to the new one. A Java exception becomes the `Failure` side of a `Result`, and `null` becomes `None`. The collection filter is a JSON value, which can also be a JSON `null` (`Some(Null)`). Wherever Java tests `collection != null`, both spellings count as `null` (`IsSet`).
- **Translators.**
  - The grammar translators (`PoliqarpPlusTree`, `CosmasTree`, `CQLTree`, `AqlTree`) are not part of this model. They enter as a function parameter `Translator` from a `Grammar` and the query text to a `Translation`. A `Translation` is either the translator's request map or the exception it threw.
  - A thrown exception is either a `QueryException` or any other `java.lang.Exception` (`Unclassified`). A `java.lang.Error` is not modelled (see `SetQuery` under "## Left out").
  - The collection translator (`CollectionQueryTree`) enters the same way, as a `CollectionTranslator`.
- **Maps.** A map is an association list. `Put` replaces the value of a present key in place and appends a new key. This is the iteration order of `LinkedHashMap`. The builder's map is a `LinkedHashMap`; the translator's request map is taken to be insertion-ordered as well (see `BuildKeepsKeyOrder` under "## Left out").
- **Integer parsing.** `Integer.valueOf` is modelled after the code:
  - an optional `+` or `-` sign, then at least one ASCII digit;
  - the value must fit in 32 bits;
  - anything else is a `NumberFormatException`.

  A size parsed from a text is never negative, because `-` is the separator and so never reaches `Integer.valueOf`; a leading `+` and leading zeros are accepted. Only the four-argument `setSpanContext` (and `addMeta(cli, cri, cls, crs, …)`) can store a negative size; the model keeps those sizes as plain integers.
- **Integer widths.** All other integers are unbounded. Nothing in the modelled code does arithmetic, so no wrap-around arises.
- **Translator map entries.** The casts in `raw()` of `requestMap.get("meta")` to `Map` and of the three diagnostics entries to `List` are modelled:
  - a value of another kind is a `ClassCastException` (`ClassCast`);
  - a list or map that the merge needs but the translator left `null` or absent is a `NullPointerException` (`NullPointer`).
- **Entries from the collection translator.** These are read into typed fields. Their casts are not modelled.

Source paths below are relative to the repository root.

## Model

| member | source | states |
|---|---|---|
| OrderedMap.Put | src/main/java/de/ids_mannheim/korap/query/serialize/MetaQueryBuilder.java:79-82 | after `put(k, v)`, `get(k)` is `v` and every other key reads as before; the map grows by at most one entry |
| OrderedMap.PutKeys | src/main/java/de/ids_mannheim/korap/query/serialize/MetaQueryBuilder.java:79-82 | a key already present keeps its position and a new key goes last, so the key order is the insertion order of `LinkedHashMap` |
| OrderedMap.PutKeepsOthers | src/main/java/de/ids_mannheim/korap/query/serialize/MetaQueryBuilder.java:79-82 | every entry under another key keeps its position and its value |
| OrderedMap.PutKeepsUnique | src/main/java/de/ids_mannheim/korap/query/serialize/MetaQueryBuilder.java:79-82 | `put` on a map without duplicate keys never duplicates a key |
| OrderedMap.GetSomeIffKey | src/main/java/de/ids_mannheim/korap/query/serialize/MetaQueryBuilder.java:79-82 | `get` finds a value exactly for the keys the map iterates over |
| OrderedMap.PutIsMapUpdate | src/main/java/de/ids_mannheim/korap/query/serialize/MetaQueryBuilder.java:79-82 | read as a mathematical map, `put` is map update, whatever the keys (duplicates included) |
| OrderedMap.GetAgreesWithToMap | src/main/java/de/ids_mannheim/korap/query/serialize/MetaQueryBuilder.java:79-82 | on a map without duplicate keys, `get` agrees with the mathematical map |
| OrderedMap.PutTwice | src/main/java/de/ids_mannheim/korap/query/serialize/MetaQueryBuilder.java:79-82 | putting the same entry twice equals putting it once |
| OrderedMap.PutAllOverlays | src/main/java/de/ids_mannheim/korap/query/serialize/MetaQueryBuilder.java:84-88 | after `m.putAll(n)`, the keys of `n` read `n`'s values and all other keys read `m`'s |
| OrderedMap.PutAllIsUnion | src/main/java/de/ids_mannheim/korap/query/serialize/MetaQueryBuilder.java:84-88 | `putAll` is the right-biased union of the two mathematical maps |
| OrderedMap.PutAllKeepsUnique | src/main/java/de/ids_mannheim/korap/query/serialize/MetaQueryBuilder.java:84-88 | `putAll` into a map without duplicate keys never duplicates a key |
| OrderedMap.PutAllKeepsPrefix | src/main/java/de/ids_mannheim/korap/query/serialize/QuerySerializer.java:174-177 | `putAll` moves no key of the receiving map: its key order is a prefix of the result's |
| JavaStrings.StripWhitespace | src/main/java/de/ids_mannheim/korap/query/serialize/MetaQueryBuilder.java:55 | `replaceAll("\\s+","")` leaves no whitespace character and never lengthens the text; `StripChar` and `StripConcat` pin down which characters stay |
| JavaStrings.StripChar | src/main/java/de/ids_mannheim/korap/query/serialize/MetaQueryBuilder.java:55 | a single whitespace character is removed and any other single character is kept |
| JavaStrings.StripConcat | src/main/java/de/ids_mannheim/korap/query/serialize/MetaQueryBuilder.java:55 | the strip of a concatenation is the concatenation of the strips, so every non-whitespace character is kept, in order |
| JavaStrings.StripWithoutWhitespace | src/main/java/de/ids_mannheim/korap/query/serialize/MetaQueryBuilder.java:55 | text without whitespace is unchanged by the strip |
| JavaStrings.StripIdempotent | src/main/java/de/ids_mannheim/korap/query/serialize/MetaQueryBuilder.java:55 | stripping twice is stripping once |
| JavaStrings.SplitAll | src/main/java/de/ids_mannheim/korap/query/serialize/MetaQueryBuilder.java:55-57 | the raw pieces hold no delimiter and re-joining them with the delimiter gives back the input |
| JavaStrings.DropTrailingEmpty | src/main/java/de/ids_mannheim/korap/query/serialize/MetaQueryBuilder.java:55-57 | keeps a prefix of the pieces that does not end in an empty piece, and drops only empty pieces |
| JavaStrings.Split | src/main/java/de/ids_mannheim/korap/query/serialize/MetaQueryBuilder.java:55-57 | `split` on a one-character delimiter: a text without it is its own single piece; otherwise the raw pieces up to the last non-empty one, with only empty pieces dropped; no piece holds the delimiter |
| JavaStrings.SplitJoin | src/main/java/de/ids_mannheim/korap/query/serialize/MetaQueryBuilder.java:55-57 | `split` inverts joining two or more delimiter-free pieces whose last piece is non-empty |
| JavaStrings.ParseInt | src/main/java/de/ids_mannheim/korap/query/serialize/MetaQueryBuilder.java:58-59 | `Integer.valueOf` accepts exactly an optional sign followed by digits whose value fits in 32 bits. An unsigned or `+` digit string, leading zeros included, reads as its decimal value, and a `-` one as its negation. A digit string beyond the 32-bit range is rejected, signed or not, and only a `-` text gives a negative value |
| JavaStrings.ParseIntOfNatToString | src/main/java/de/ids_mannheim/korap/query/serialize/MetaQueryBuilder.java:58-59 | the decimal spelling of every size up to `Integer.MAX_VALUE` parses back to that size |
| JavaStrings.LeadingZeroIgnored | src/main/java/de/ids_mannheim/korap/query/serialize/MetaQueryBuilder.java:58-59 | a leading zero does not change the value of a digit string, so `05` reads as 5 |
| JavaStrings.ParseIntRejects | src/main/java/de/ids_mannheim/korap/query/serialize/MetaQueryBuilder.java:58-59 | a text with a character that is neither a digit nor a leading sign is rejected |
| JavaStrings.EqualsIgnoreCaseIffLowerEqual | src/main/java/de/ids_mannheim/korap/query/serialize/QuerySerializer.java:126-137 | `equalsIgnoreCase` holds exactly when the two lower-case forms are equal, in both directions |
| MetaQueryBuilder.SizeAndType | src/main/java/de/ids_mannheim/korap/query/serialize/MetaQueryBuilder.java:56-59 | one half is read exactly when it has at least two pieces and `Integer.valueOf` accepts the first, giving that size and the second piece as unit (further pieces ignored); otherwise it fails with `NumberFormat` for the first piece or the index error, in Java's evaluation order |
| MetaQueryBuilder.ParseContextSpec | src/main/java/de/ids_mannheim/korap/query/serialize/MetaQueryBuilder.java:51-60 | a text starting with `s` or `p` becomes that preset verbatim. Any other text parses exactly when its whitespace-free form splits on `,` into at least two halves and each of the first two reads as `size-type` (further halves and pieces are ignored). The window is then the two sizes and units, sizes between 0 and `Integer.MAX_VALUE`. Fewer than two halves always fail: a text without a comma with index 1 out of bounds for length 1, and also texts such as `3-t,` or `,` |
| MetaQueryBuilder.ParsedTypesAreClean | src/main/java/de/ids_mannheim/korap/query/serialize/MetaQueryBuilder.java:55-59 | the units of a parsed window contain no whitespace, `-` or `,` |
| MetaQueryBuilder.SetSpanContext | src/main/java/de/ids_mannheim/korap/query/serialize/MetaQueryBuilder.java:51-62 | `setSpanContext(String)` succeeds exactly when the text parses, and it leaves the entries untouched |
| MetaQueryBuilder.SetSpanContextWindow | src/main/java/de/ids_mannheim/korap/query/serialize/MetaQueryBuilder.java:33-37 | `setSpanContext(left, leftType, right, rightType)` leaves the entries alone, and the map read out holds those sizes and units under `context`, each side reading back as its unit and size |
| MetaQueryBuilder.HalfWithoutTypeFails | src/main/java/de/ids_mannheim/korap/query/serialize/MetaQueryBuilder.java:56-59 | a composite text with a half that `split("-")` cuts into fewer than two pieces is rejected. This covers a half without `-` and halves such as `5-` or `3--`, whose empty trailing type `split` drops |
| MetaQueryBuilder.NonNumericSizeFails | src/main/java/de/ids_mannheim/korap/query/serialize/MetaQueryBuilder.java:56-59 | a composite text with a size that is not an integer is rejected |
| MetaQueryBuilder.WindowSpecParses | src/main/java/de/ids_mannheim/korap/query/serialize/MetaQueryBuilder.java:55-59 | parsing the composite text `L-lt,R-rt` of a window gives back exactly that window |
| MetaQueryBuilder.WindowValuePrints | src/main/java/de/ids_mannheim/korap/query/serialize/MetaQueryBuilder.java:119-131 | the `context` value of a window reads back as its composite text, type first and left before right |
| MetaQueryBuilder.ContextSpecRoundTrip | src/main/java/de/ids_mannheim/korap/query/serialize/MetaQueryBuilder.java:51-136 | parsing what the `context` value of `raw()` prints gives back the same context, for windows and presets alike |
| MetaQueryBuilder.CompositeSpecIgnoresWhitespace | src/main/java/de/ids_mannheim/korap/query/serialize/MetaQueryBuilder.java:55-131 | a composite text with whitespace anywhere parses as the text without it, and `raw()` maps `context` to `{left: [lt, L], right: [rt, R]}` |
| MetaQueryBuilder.PresetContextIsVerbatim | src/main/java/de/ids_mannheim/korap/query/serialize/MetaQueryBuilder.java:51-53 | a text starting with `s` or `p` is stored unchanged, and `raw()` maps `context` to exactly that text |
| MetaQueryBuilder.LastContextCallWins | src/main/java/de/ids_mannheim/korap/query/serialize/MetaQueryBuilder.java:33-62 | after any run of `setSpanContext` calls of either overload, the last call alone decides the context and the entries are untouched |
| MetaQueryBuilder.AddEntry | src/main/java/de/ids_mannheim/korap/query/serialize/MetaQueryBuilder.java:79-82 | `addEntry` stores the value, keeps the position of a key already present, appends a new key, and leaves the other keys and the context alone |
| MetaQueryBuilder.FillMeta | src/main/java/de/ids_mannheim/korap/query/serialize/MetaQueryBuilder.java:64-77 | `fillMeta` fails exactly when a context text is given and does not parse, with that parse error; otherwise the context is the parsed one, or unchanged when none is given |
| MetaQueryBuilder.FillMetaPagination | src/main/java/de/ids_mannheim/korap/query/serialize/MetaQueryBuilder.java:66-69 | `startIndex` is set exactly when `pageIndex` is given; `startPage` is set only when `pageIndex` is absent and `pageInteger` present; an absent argument leaves its key untouched |
| MetaQueryBuilder.FillMetaNeverBothStarts | src/main/java/de/ids_mannheim/korap/query/serialize/MetaQueryBuilder.java:66-69 | on a builder with neither key, one call never adds both `startIndex` and `startPage` |
| MetaQueryBuilder.FillMetaCountAndCutOff | src/main/java/de/ids_mannheim/korap/query/serialize/MetaQueryBuilder.java:70-75 | `count` is set exactly when `pageLength` is given and `cutOff` exactly when `cutoff` is given; otherwise they keep their old values |
| MetaQueryBuilder.FillMetaLeavesOthers | src/main/java/de/ids_mannheim/korap/query/serialize/MetaQueryBuilder.java:64-77 | `fillMeta` moves no existing key and touches no key besides its four |
| MetaQueryBuilder.Raw | src/main/java/de/ids_mannheim/korap/query/serialize/MetaQueryBuilder.java:84-136 | `raw()` adds `context` exactly when a span context is set, holding that context's value; other entries and their order are as accumulated |
| MetaQueryBuilder.ContextValue | src/main/java/de/ids_mannheim/korap/query/serialize/MetaQueryBuilder.java:119-136 | `SpanContext.raw()` gives a string exactly for a preset and a map with keys `left`, `right` in that order exactly for a window |
| MetaQueryBuilder.ContextValueReadsBack | src/main/java/de/ids_mannheim/korap/query/serialize/MetaQueryBuilder.java:119-136 | the `context` value reads back as the preset string, or as each side's unit and size |
| MetaQueryBuilder.ContextValueInjective | src/main/java/de/ids_mannheim/korap/query/serialize/MetaQueryBuilder.java:119-136 | different span contexts give different `context` values: `raw()` loses nothing |
| MetaQueryBuilder.RawKeepsUnique | src/main/java/de/ids_mannheim/korap/query/serialize/MetaQueryBuilder.java:84-88 | `raw()` on a map without duplicate keys gives a map without duplicate keys |
| MetaQueryBuilder.AddEntryKeepsUnique | src/main/java/de/ids_mannheim/korap/query/serialize/MetaQueryBuilder.java:79-82 | `addEntry` never duplicates a key |
| MetaQueryBuilder.FillMetaKeepsUnique | src/main/java/de/ids_mannheim/korap/query/serialize/MetaQueryBuilder.java:64-77 | `fillMeta` never duplicates a key |
| MetaQueryBuilder.RawIdempotent | src/main/java/de/ids_mannheim/korap/query/serialize/MetaQueryBuilder.java:84-88 | `raw()` writes into the builder's own map, and calling it a second time gives the same map |
| QuerySerializer.SelectGrammar | src/main/java/de/ids_mannheim/korap/query/serialize/QuerySerializer.java:126-141 | the tag is accepted exactly when its lower-case form is registered and then selects the registry's translator; any other tag fails with `<ql> is not a supported query language!` |
| QuerySerializer.SetQuery | src/main/java/de/ids_mannheim/korap/query/serialize/QuerySerializer.java:119-149 | a null or empty query fails with 406 `No Content!` whatever the tag; a null tag or an exception other than `QueryException` becomes `UNKNOWN: Query could not be parsed (q)`; a `QueryException` propagates unchanged; success sets only the translator's map |
| QuerySerializer.SetQueryIgnoresCase | src/main/java/de/ids_mannheim/korap/query/serialize/QuerySerializer.java:126-138 | two tags equal up to case give the same outcome |
| QuerySerializer.PoliqarpIsAlias | src/main/java/de/ids_mannheim/korap/query/serialize/QuerySerializer.java:126-131 | `poliqarp` and `poliqarpplus`, in any case, give the same outcome |
| QuerySerializer.CqlVersionPassing | src/main/java/de/ids_mannheim/korap/query/serialize/QuerySerializer.java:132-153 | the CQL translator gets the version as given, with `null` selecting the default version; the two-argument `setQuery` passes `""` |
| QuerySerializer.SetQueryWithoutVersion | src/main/java/de/ids_mannheim/korap/query/serialize/QuerySerializer.java:151-153 | the two-argument `setQuery` fails with 406 on a null or empty query, changes only the translator's map on success, and hands `""` to the CQL translator |
| QuerySerializer.VersionOnlyMattersForCql | src/main/java/de/ids_mannheim/korap/query/serialize/QuerySerializer.java:119-153 | for every tag other than `cql`, the two-argument `setQuery` behaves as the three-argument one with any version |
| QuerySerializer.RunDispatch | src/main/java/de/ids_mannheim/korap/query/serialize/QuerySerializer.java:101-115 | `run` accepts `poliqarp` only in exact lower case and every other registered tag in any case, selecting the registry's translator; an unknown tag fails with the unsupported-language message |
| QuerySerializer.Run | src/main/java/de/ids_mannheim/korap/query/serialize/QuerySerializer.java:101-117 | `run` keeps the translator's map on success and passes the translator's exceptions on without wrapping; a null tag is a `NullPointerException` |
| QuerySerializer.RunAgreesWithSetQuery | src/main/java/de/ids_mannheim/korap/query/serialize/QuerySerializer.java:101-149 | on a lower-case registered tag and a non-empty query, `run` and `setQuery` pick the same translator and keep the same map; they differ only on an exception other than `QueryException`, which `setQuery` wraps |
| QuerySerializer.RunIsCaseSensitiveForPoliqarp | src/main/java/de/ids_mannheim/korap/query/serialize/QuerySerializer.java:101-131 | `Poliqarp` is rejected by `run` and accepted by `setQuery` |
| QuerySerializer.Build | src/main/java/de/ids_mannheim/korap/query/serialize/QuerySerializer.java:161-195 | with no query set, `build()` returns an empty map even if metadata or a collection is set |
| QuerySerializer.ReadPartsCasts | src/main/java/de/ids_mannheim/korap/query/serialize/QuerySerializer.java:167-171 | the four casts succeed exactly when each entry is absent, `null` or of the expected kind, and they then read the translator's parts |
| QuerySerializer.MergePartsSucceeds | src/main/java/de/ids_mannheim/korap/query/serialize/QuerySerializer.java:172-189 | the merge fails exactly on a part that the serializer adds to but the translator left out |
| QuerySerializer.BuildSucceedsIffMergeable | src/main/java/de/ids_mannheim/korap/query/serialize/QuerySerializer.java:165-192 | once a query is set, `build()` succeeds exactly when the translator's map can be merged |
| QuerySerializer.BuildEntry | src/main/java/de/ids_mannheim/korap/query/serialize/QuerySerializer.java:165-192 | every entry of the response equals the reference `MergedEntry`, stated key by key rather than step by step |
| QuerySerializer.BuildAttachesCollection | src/main/java/de/ids_mannheim/korap/query/serialize/QuerySerializer.java:172-173 | the collection is attached when it is set and not `null`; otherwise the translator's entry stays |
| QuerySerializer.BuildOverlaysMeta | src/main/java/de/ids_mannheim/korap/query/serialize/QuerySerializer.java:174-177 | with caller metadata, `meta` is the translator's metadata with the caller's entries put over it; without, it is the translator's entry |
| QuerySerializer.CallerMetaWins | src/main/java/de/ids_mannheim/korap/query/serialize/QuerySerializer.java:174-177 | in the merged metadata, the caller wins on each key it supplies and every other translator key survives with its value |
| QuerySerializer.BuildAppendsDiagnostics | src/main/java/de/ids_mannheim/korap/query/serialize/QuerySerializer.java:178-189 | the collection's `errors`, `warnings` and `messages` follow the translator's own, in order |
| QuerySerializer.BuildKeepsOtherEntries | src/main/java/de/ids_mannheim/korap/query/serialize/QuerySerializer.java:165-192 | every entry other than the five merged parts passes through unchanged |
| QuerySerializer.BuildKeepsKeyOrder | src/main/java/de/ids_mannheim/korap/query/serialize/QuerySerializer.java:165-192 | no key of the translator's map moves, and the only key `build()` can add is `collection`, at the end |
| QuerySerializer.AddMetaWindow | src/main/java/de/ids_mannheim/korap/query/serialize/QuerySerializer.java:198-207 | the stored metadata is exactly `startIndex`, `count`, `context` in that order, with the window's left size `cls` in unit `cli` and right size `crs` in unit `cri`; nothing else changes |
| QuerySerializer.AddMetaContext | src/main/java/de/ids_mannheim/korap/query/serialize/QuerySerializer.java:209-216 | fails exactly when the context text does not parse, with its error; otherwise stores exactly `startIndex`, `count`, `context` |
| QuerySerializer.AddMetaBuilder | src/main/java/de/ids_mannheim/korap/query/serialize/QuerySerializer.java:218-221 | `addMeta(builder)` stores the builder's map read out with its context, keeps its key order, changes nothing else, and keeps keys unique, so `CallerMetaWins` applies |
| QuerySerializer.LastAddMetaWins | src/main/java/de/ids_mannheim/korap/query/serialize/QuerySerializer.java:198-221 | every `addMeta` overload replaces the stored metadata wholesale: after any run of calls, the last call alone decides it and no other field changes |
| QuerySerializer.SetCollection | src/main/java/de/ids_mannheim/korap/query/serialize/QuerySerializer.java:231-240 | fails exactly when the collection translator throws, with its exception; otherwise the filter and the three diagnostics lists become the collection translator's and the query and metadata stay |
| QuerySerializer.SetCollectionThenBuild | src/main/java/de/ids_mannheim/korap/query/serialize/QuerySerializer.java:165-192 | after `setQuery` and `setCollection(String)`, `build()` holds the collection translator's filter when it gave a non-`null` one, and each diagnostics list is the query translator's followed by the collection translator's |
| QuerySerializer.SetBuiltCollection | src/main/java/de/ids_mannheim/korap/query/serialize/QuerySerializer.java:242-250 | `setCollection(builder)` and `setDeprCollection` set the filter and change no other field |
| QuerySerializer.QueryAndCollectionCommute | src/main/java/de/ids_mannheim/korap/query/serialize/QuerySerializer.java:119-240 | setting the query and setting the collection commute |
| QuerySerializer.BuiltCollectionKeepsDiagnostics | src/main/java/de/ids_mannheim/korap/query/serialize/QuerySerializer.java:172-245 | a collection from a builder replaces the filter, unless it is `null`, and keeps the stored diagnostics, which are still appended |

## Left out

- `main`, `toJSON`, logging and `printStackTrace`: these are I/O and JSON text output through a serialiser that is not part of this model.
- Run: the `toJSON()` call at the end of `run`, which reads the map out through `raw()`, is not part of `Run`; its failure cases are those of `Build`.
- Run: the query is never null here. `run` passes a null query on to the translator, whose behaviour is not part of this model.
- The grammar translators (`PoliqarpPlusTree`, `CosmasTree`, `CQLTree`, `AqlTree`) and `CollectionQueryTree`: they are ANTLR-based and not part of this model. They are parameters.
- `setCollectionSimple`: it needs `CollectionQueryBuilder`, which is not part of this model.
- `setCollection(CollectionQueryBuilder2)` and `setDeprCollection`: these are modelled only as the stored value of `raw()` (`SetBuiltCollection`), because the builders are not part of this model.
- SetCollection: the casts of the collection translator's entries to `List` are not modelled, because that translator's map is taken as already typed.
- The unused `qlProcessorAssignment` map and the `QueryLanguage` enum: they have no bearing on behaviour.
- Lombok accessors such as `getSpanContext`: they have no bearing on behaviour.
- Repeated `build()` calls: `raw()` adds to maps and lists taken from the translator's request map, so a second call could append the collection diagnostics again. Whether it does depends on `AbstractSyntaxTree.getRequestMap`, which is not part of this model, so nothing is stated about a second call. Aliasing between the builder passed to `addMeta(builder)` and the serializer is left out for the same reason.
- FillMeta: when `setSpanContext` throws in the middle of `fillMeta`, the entries added before the throw stay in the Java builder. The model returns only the exception, not that partial builder.
- SetSpanContextWindow: a `null` `Integer` argument, which Java rejects when unboxing it into the `int` fields, is not modelled; the sizes are plain integers.
- ParseContextSpec: a `null` text (a `NullPointerException` from `context.startsWith`) is not modelled; the text is a plain string. `fillMeta` tests for `null` first, but `addMeta(context, num, pageidx)` does not.
- AddMetaContext: a `null` context, for which `addMeta(context, num, pageidx)` throws a `NullPointerException` from `setSpanContext`, is not modelled, because the context is a plain string.
- SetSpanContextWindow: a `null` unit `String` is not modelled. Java accepts it in `setSpanContext(Integer, String, Integer, String)` and in `addMeta(cli, cri, …)`, and `SpanContext.raw()` then prints `[null, size]`; the model's units are plain strings.
- AddMetaWindow: a `null` `cli` or `cri` unit is not modelled either, for the same reason.
- BuildKeepsKeyOrder: the response is the translator's own request map, whose class `AbstractSyntaxTree` is not part of this model. The lemma assumes that map is insertion-ordered, like the builder's `LinkedHashMap`; for a hash-ordered map only the per-key facts (`BuildEntry` and the lemmas after it) hold.
- ParseInt: only ASCII digits are accepted. Java's `Integer.valueOf` also accepts other Unicode decimal digits.
- EqualsIgnoreCaseIffLowerEqual: case folding covers ASCII letters only. Java also folds characters such as U+0131 and U+017F, and `toLowerCase` depends on the default locale.
- FCS-QL: that query language is not wired into this dispatch.
- SetQuery: a `java.lang.Error` thrown by a translator, such as a `StackOverflowError` on a deeply nested query, is not caught by `catch (Exception e)` and not modelled. A translator here either returns its map or throws an `Exception`, so `Unclassified` is always wrapped as `UNKNOWN`.

=== FILE: java_strings.dfy ===
/** The few `java.lang.String` / `java.lang.Integer` operations the metadata
    builder and the serializer rely on, restricted to what those callers need:
    `replaceAll("\\s+", "")`, `split` on a one-character literal delimiter,
    `Integer.valueOf`, `startsWith`, `toLowerCase` and `equalsIgnoreCase`.
    Case mapping and digits are ASCII only. */
module JavaStrings {
  import opened Wrappers

  /** The characters of the regular-expression class `\s`: space, tab, line
      feed, vertical tab, form feed and carriage return. */
  predicate IsWhitespace(c: char) {
    c == ' ' || c == '\t' || c == '\n' || c == '\U{000B}' || c == '\U{000C}' || c == '\r'
  }

  predicate NoWhitespace(s: string) {
    forall i :: 0 <= i < |s| ==> !IsWhitespace(s[i])
  }

  /** Text joined from whitespace-free pieces is whitespace-free. */
  lemma NoWhitespaceConcat(a: string, b: string)
    requires NoWhitespace(a) && NoWhitespace(b)
    ensures NoWhitespace(a + b)
  {
    forall i | 0 <= i < |a + b|
      ensures !IsWhitespace((a + b)[i])
    {
      if i >= |a| {
        assert (a + b)[i] == b[i - |a|];
      }
    }
  }

  /** `s.replaceAll("\\s+", "")`: every whitespace character is removed. */
  function StripWhitespace(s: string): (r: string)
    ensures NoWhitespace(r)
    ensures |r| <= |s|
  {
    if |s| == 0 then ""
    else (if IsWhitespace(s[0]) then "" else [s[0]]) + StripWhitespace(s[1..])
  }

  /** The strip of one character: a whitespace character goes, any other
      character stays. */
  lemma StripChar(c: char)
    ensures StripWhitespace([c]) == if IsWhitespace(c) then "" else [c]
  {
    assert [c][1..] == [];
  }

  /** The strip works piece by piece: stripping a concatenation is
      concatenating the strips. With `StripChar` this fixes the strip on
      every string: each non-whitespace character is kept, in order. */
  lemma {:induction false} StripConcat(a: string, b: string)
    ensures StripWhitespace(a + b) == StripWhitespace(a) + StripWhitespace(b)
  {
    if |a| > 0 {
      assert (a + b)[0] == a[0];
      assert (a + b)[1..] == a[1..] + b;
      StripConcat(a[1..], b);
    } else {
      assert a + b == b;
    }
  }

  /** Stripping a string without whitespace changes nothing. */
  lemma {:induction false} StripWithoutWhitespace(s: string)
    requires NoWhitespace(s)
    ensures StripWhitespace(s) == s
  {
    if |s| > 0 {
      StripWithoutWhitespace(s[1..]);
    }
  }

  /** Stripping is idempotent. */
  lemma StripIdempotent(s: string)
    ensures StripWhitespace(StripWhitespace(s)) == StripWhitespace(s)
  {
    StripWithoutWhitespace(StripWhitespace(s));
  }

  /** The first character of a string is either whitespace or the first
      character of its stripped form. */
  lemma StripFirst(s: string)
    requires |s| > 0 && !IsWhitespace(s[0])
    ensures |StripWhitespace(s)| > 0 && StripWhitespace(s)[0] == s[0]
  {
  }

  /** The pieces joined back with the delimiter between them. */
  function Join(ps: seq<string>, d: char): string
  {
    if |ps| == 0 then ""
    else if |ps| == 1 then ps[0]
    else ps[0] + [d] + Join(ps[1..], d)
  }

  /** Cuts `s` at every occurrence of `d`, keeping all pieces, empty ones
      included: one more piece than there are delimiters. */
  function SplitAll(s: string, d: char): (ps: seq<string>)
    ensures |ps| >= 1
    ensures forall i :: 0 <= i < |ps| ==> d !in ps[i]
    ensures Join(ps, d) == s
  {
    if |s| == 0 then [""]
    else
      var rest := SplitAll(s[1..], d);
      if s[0] == d then [""] + rest
      else [[s[0]] + rest[0]] + rest[1..]
  }

  /** Splitting what `Join` produced gives back the pieces, as long as no
      piece contains the delimiter. */
  lemma {:induction false} SplitAllJoin(ps: seq<string>, d: char)
    requires |ps| >= 1
    requires forall i :: 0 <= i < |ps| ==> d !in ps[i]
    ensures SplitAll(Join(ps, d), d) == ps
  {
    if |ps| == 1 {
      SplitAllOfPiece(ps[0], d);
    } else {
      SplitAllJoin(ps[1..], d);
      SplitAllPrefix(ps[0], Join(ps[1..], d), d);
    }
  }

  lemma {:induction false} SplitAllOfPiece(p: string, d: char)
    requires d !in p
    ensures SplitAll(p, d) == [p]
  {
    if |p| > 0 {
      SplitAllOfPiece(p[1..], d);
    }
  }

  /** A delimiter-free prefix followed by the delimiter becomes the first
      piece. */
  lemma {:induction false} SplitAllPrefix(p: string, rest: string, d: char)
    requires d !in p
    ensures SplitAll(p + [d] + rest, d) == [p] + SplitAll(rest, d)
  {
    if |p| == 0 {
      assert p + [d] + rest == [d] + rest;
      assert ([d] + rest)[1..] == rest;
    } else {
      assert (p + [d] + rest)[1..] == p[1..] + [d] + rest;
      SplitAllPrefix(p[1..], rest, d);
      assert [p[0]] + p[1..] == p;
    }
  }

  /** The delimiter occurs in `s` exactly when `s` splits into more than one
      piece. */
  lemma {:induction false} SplitAllCount(s: string, d: char)
    ensures d in s <==> |SplitAll(s, d)| > 1
  {
    var ps := SplitAll(s, d);
    if |ps| > 1 {
      assert s == ps[0] + [d] + Join(ps[1..], d);
      assert s[|ps[0]|] == d;
    } else {
      assert s == ps[0];
    }
  }

  /** Drops the trailing empty pieces, as `split` does when no limit is
      given. */
  function DropTrailingEmpty(ps: seq<string>): (r: seq<string>)
    ensures r <= ps
    ensures |r| == 0 || r[|r| - 1] != ""
    ensures forall i :: |r| <= i < |ps| ==> ps[i] == ""
  {
    if |ps| == 0 then []
    else if ps[|ps| - 1] == "" then DropTrailingEmpty(ps[..|ps| - 1])
    else ps
  }

  /** `s.split(String.valueOf(d))` for a delimiter that is not a regular
      expression metacharacter: a string without the delimiter is its own
      single piece; otherwise all pieces, with trailing empty ones dropped. */
  function Split(s: string, d: char): (ps: seq<string>)
    ensures d !in s ==> ps == [s]
    ensures d in s ==> ps <= SplitAll(s, d) && (|ps| == 0 || ps[|ps| - 1] != "")
    ensures d in s ==> forall i :: |ps| <= i < |SplitAll(s, d)| ==> SplitAll(s, d)[i] == ""
    ensures forall i :: 0 <= i < |ps| ==> d !in ps[i]
  {
    if d !in s then [s] else DropTrailingEmpty(SplitAll(s, d))
  }

  /** Splitting the join of at least two delimiter-free pieces, the last of
      which is non-empty, returns exactly those pieces. */
  lemma SplitJoin(ps: seq<string>, d: char)
    requires |ps| >= 2 && ps[|ps| - 1] != ""
    requires forall i :: 0 <= i < |ps| ==> d !in ps[i]
    ensures Split(Join(ps, d), d) == ps
  {
    SplitAllJoin(ps, d);
    SplitAllCount(Join(ps, d), d);
  }

  predicate IsDigit(c: char) {
    '0' <= c <= '9'
  }

  predicate AllDigits(s: string) {
    forall i :: 0 <= i < |s| ==> IsDigit(s[i])
  }

  /** The decimal value of a digit string. */
  function DigitsValue(s: string): nat
    requires AllDigits(s)
  {
    if |s| == 0 then 0
    else DigitsValue(s[..|s| - 1]) * 10 + (s[|s| - 1] as int - '0' as int)
  }

  const IntMin: int := -0x8000_0000
  const IntMax: int := 0x7FFF_FFFF

  /** `Integer.valueOf(s)`: an optional `+` or `-` sign followed by at least
      one decimal digit, whose value fits in 32 bits; `None` stands for the
      `NumberFormatException`. */
  function ParseInt(s: string): (r: Option<int>)
    ensures r.Some? ==> IntMin <= r.value <= IntMax
    ensures r.Some? ==> |s| > 0 && AllDigits(s[1..]) && (IsDigit(s[0]) || s[0] == '+' || s[0] == '-')
    ensures r.Some? && IsDigit(s[0]) ==> r.value == DigitsValue(s)
    ensures r.Some? && r.value < 0 ==> s[0] == '-'
    ensures |s| > 0 && AllDigits(s) && DigitsValue(s) <= IntMax ==> r == Some(DigitsValue(s))
    ensures |s| > 1 && s[0] == '+' && AllDigits(s[1..]) && DigitsValue(s[1..]) <= IntMax ==> r == Some(DigitsValue(s[1..]))
    ensures |s| > 1 && s[0] == '-' && AllDigits(s[1..]) && DigitsValue(s[1..]) <= -IntMin ==> r == Some(0 - DigitsValue(s[1..]) as int)
    ensures |s| > 0 && AllDigits(s) && DigitsValue(s) > IntMax ==> r.None?
    ensures |s| > 1 && s[0] == '+' && AllDigits(s[1..]) && DigitsValue(s[1..]) > IntMax ==> r.None?
    ensures |s| > 1 && s[0] == '-' && AllDigits(s[1..]) && DigitsValue(s[1..]) > -IntMin ==> r.None?
  {
    if |s| == 0 then None
    else
      var signed := s[0] == '+' || s[0] == '-';
      var digits := if signed then s[1..] else s;
      if |digits| == 0 || !AllDigits(digits) then None
      else
        var v: int := if s[0] == '-' then 0 - DigitsValue(digits) as int else DigitsValue(digits);
        if IntMin <= v <= IntMax then Some(v) else None
  }

  /** The decimal spelling of a natural number, without sign or leading
      zeros. */
  function NatToString(n: nat): (s: string)
    ensures |s| > 0 && AllDigits(s)
  {
    if n < 10 then [('0' as int + n) as char]
    else NatToString(n / 10) + [('0' as int + n % 10) as char]
  }

  /** Reading the spelling of `n` gives back `n`. */
  lemma {:induction false} DigitsValueOfNatToString(n: nat)
    ensures DigitsValue(NatToString(n)) == n
  {
    var s := NatToString(n);
    if n >= 10 {
      DigitsValueOfNatToString(n / 10);
      assert s[..|s| - 1] == NatToString(n / 10);
    }
  }

  /** `Integer.valueOf` parses the spelling of every natural number up to
      `Integer.MAX_VALUE` back to that number. */
  lemma ParseIntOfNatToString(n: nat)
    requires n <= IntMax
    ensures ParseInt(NatToString(n)) == Some(n)
  {
    DigitsValueOfNatToString(n);
  }

  /** Leading zeros do not change the value of a digit string, so
      `Integer.valueOf("05")` is 5. */
  lemma {:induction false} LeadingZeroIgnored(s: string)
    requires AllDigits(s)
    ensures AllDigits("0" + s) && DigitsValue("0" + s) == DigitsValue(s)
  {
    var t := "0" + s;
    if |s| > 0 {
      assert t[..|t| - 1] == "0" + s[..|s| - 1];
      LeadingZeroIgnored(s[..|s| - 1]);
    }
  }

  /** A string holding a character that is neither a digit nor a leading sign
      is not a number. */
  lemma ParseIntRejects(s: string, i: nat)
    requires i < |s| && !IsDigit(s[i]) && !(i == 0 && (s[i] == '+' || s[i] == '-'))
    ensures ParseInt(s).None?
  {
  }

  function LowerChar(c: char): char {
    if 'A' <= c <= 'Z' then (c as int + 32) as char else c
  }

  function UpperChar(c: char): char {
    if 'a' <= c <= 'z' then (c as int - 32) as char else c
  }

  /** `String.toLowerCase()`. */
  function ToLower(s: string): (r: string)
    ensures |r| == |s|
    ensures forall i :: 0 <= i < |s| ==> r[i] == LowerChar(s[i])
  {
    seq(|s|, i requires 0 <= i < |s| => LowerChar(s[i]))
  }

  /** `String.equalsIgnoreCase`: equal lengths, and at each position the
      characters are equal, or equal after upper-casing, or equal after
      upper- then lower-casing. */
  predicate EqualsIgnoreCase(a: string, b: string) {
    && |a| == |b|
    && forall i :: 0 <= i < |a| ==>
         || a[i] == b[i]
         || UpperChar(a[i]) == UpperChar(b[i])
         || LowerChar(UpperChar(a[i])) == LowerChar(UpperChar(b[i]))
  }

  /** Two strings are equal ignoring case exactly when their lower-case forms
      are equal. */
  lemma EqualsIgnoreCaseIffLowerEqual(a: string, b: string)
    ensures EqualsIgnoreCase(a, b) <==> ToLower(a) == ToLower(b)
  {
    if ToLower(a) == ToLower(b) {
      forall i | 0 <= i < |a|
        ensures UpperChar(a[i]) == UpperChar(b[i])
      {
        assert LowerChar(a[i]) == LowerChar(b[i]);
      }
    }
  }

  /** A string without upper-case letters is its own lower-case form. */
  lemma ToLowerOfLower(s: string)
    requires forall i :: 0 <= i < |s| ==> !('A' <= s[i] <= 'Z')
    ensures ToLower(s) == s
  {
  }
}

=== FILE: json.dfy ===
/** The untyped values the builder and the serializer put into their maps:
    Java `null`, `Integer`, `Boolean`, `String`, `List` and (linked) `Map`. */
module Json {
  import opened OrderedMap

  datatype Value =
    | Null
    | Int(i: int)
    | Bool(b: bool)
    | Str(s: string)
    | List(items: seq<Value>)
    | Object(fields: OMap<string, Value>)
}

=== FILE: meta_query_builder.dfy ===
/** The metadata builder: an insertion-ordered map of metadata entries
    (pagination and the like) plus an optional span context, merged in under
    the key `context` when the map is read out. */
module MetaQueryBuilder {
  import opened Wrappers
  import opened OrderedMap
  import opened JavaStrings
  import opened Json

  /** A context window: either sizes and units for the left and right side, or
      a named preset such as a sentence or paragraph. */
  datatype SpanContext =
    | Window(leftSize: int, leftType: string, rightSize: int, rightType: string)
    | Preset(context: string)

  datatype Builder = Builder(meta: OMap<string, Value>, spanContext: Option<SpanContext>)

  /** The exceptions a malformed context specification raises:
      `ArrayIndexOutOfBoundsException` for a missing piece and
      `NumberFormatException` for a size that is not an integer. */
  datatype SpecError =
    | IndexOutOfBounds(index: nat, length: nat)
    | NumberFormat(input: string)

  function NewBuilder(): Builder {
    Builder([], None)
  }

  /** `setSpanContext(left, leftType, right, rightType)`: the sizes and units
      are stored as given, and the map read out carries them under
      `context`. */
  function SetSpanContextWindow(b: Builder, left: int, leftType: string, right: int, rightType: string): (r: Builder)
    ensures r.meta == b.meta
    ensures Get(Raw(r), "context") == Some(ContextValue(Window(left, leftType, right, rightType)))
    ensures r.spanContext.Some? && r.spanContext.value.Window?
    ensures TypeAndSize(Get(ContextValue(r.spanContext.value).fields, "left")) == Some((leftType, left))
    ensures TypeAndSize(Get(ContextValue(r.spanContext.value).fields, "right")) == Some((rightType, right))
  {
    var r := b.(spanContext := Some(Window(left, leftType, right, rightType)));
    ContextValueReadsBack(r.spanContext.value);
    r
  }

  /** A specification starting with `s` or `p` names a preset. */
  predicate StartsWithPreset(spec: string) {
    |spec| > 0 && (spec[0] == 's' || spec[0] == 'p')
  }

  /** A unit name the composite form can carry: non-empty and free of
      whitespace and of the two separators. */
  predicate PrintableType(t: string) {
    t != "" && NoWhitespace(t) && '-' !in t && ',' !in t
  }

  /** The whitespace-free specification cut into its comma-separated halves. */
  function Halves(spec: string): seq<string> {
    Split(StripWhitespace(spec), ',')
  }

  /** Reads `size-type` pieces in the order Java evaluates them: the size
      piece, its conversion, then the type piece. A half is read exactly when
      it has at least two pieces and the first is an integer; any further
      pieces are ignored. */
  function SizeAndType(pieces: seq<string>): (r: Result<(int, string), SpecError>)
    ensures r.Success? <==> |pieces| >= 2 && ParseInt(pieces[0]).Some?
    ensures r.Success? ==> r.value == (ParseInt(pieces[0]).value, pieces[1])
    ensures |pieces| == 0 ==> r == Failure(IndexOutOfBounds(0, 0))
    ensures |pieces| > 0 && ParseInt(pieces[0]).None? ==> r == Failure(NumberFormat(pieces[0]))
    ensures |pieces| == 1 && ParseInt(pieces[0]).Some? ==> r == Failure(IndexOutOfBounds(1, 1))
  {
    if |pieces| == 0 then Failure(IndexOutOfBounds(0, 0))
    else match ParseInt(pieces[0])
      case None => Failure(NumberFormat(pieces[0]))
      case Some(n) =>
        if |pieces| < 2 then Failure(IndexOutOfBounds(1, |pieces|))
        else Success((n, pieces[1]))
  }

  /** A half `size-type[-…]` that reads: at least two pieces, the first an
      integer. */
  predicate HalfReads(half: string) {
    |Split(half, '-')| >= 2 && ParseInt(Split(half, '-')[0]).Some?
  }

  /** The parser behind `setSpanContext(String)`. A composite text parses
      exactly when its first two halves read; further halves are ignored. */
  function ParseContextSpec(spec: string): (r: Result<SpanContext, SpecError>)
    ensures StartsWithPreset(spec) ==> r == Success(Preset(spec))
    ensures !StartsWithPreset(spec) && |Halves(spec)| < 2 ==> r.Failure?
    ensures !StartsWithPreset(spec) ==>
      (r.Success? <==> |Halves(spec)| >= 2 && HalfReads(Halves(spec)[0]) && HalfReads(Halves(spec)[1]))
    ensures !StartsWithPreset(spec) && r.Success? ==>
      var lc, rc := Split(Halves(spec)[0], '-'), Split(Halves(spec)[1], '-');
      r.value == Window(ParseInt(lc[0]).value, lc[1], ParseInt(rc[0]).value, rc[1])
    ensures !StartsWithPreset(spec) && r.Success? ==>
      && r.value.Window?
      && 0 <= r.value.leftSize <= IntMax && 0 <= r.value.rightSize <= IntMax
    ensures !StartsWithPreset(spec) && ',' !in spec ==> r == Failure(IndexOutOfBounds(1, 1))
  {
    if StartsWithPreset(spec) then Success(Preset(spec))
    else
      var ct := Halves(spec);
      StripKeepsAbsent(spec);
      if |ct| == 0 then Failure(IndexOutOfBounds(0, 0))
      else if |ct| == 1 then Failure(IndexOutOfBounds(1, 1))
      else
        var lc := Split(ct[0], '-');
        var rc := Split(ct[1], '-');
        var left :- SizeAndType(lc);
        var right :- SizeAndType(rc);
        Success(Window(left.0, left.1, right.0, right.1))
  }

  /** The unit names of a parsed composite specification carry no
      whitespace and neither separator. */
  lemma ParsedTypesAreClean(spec: string)
    requires !StartsWithPreset(spec) && ParseContextSpec(spec).Success?
    ensures var w := ParseContextSpec(spec).value;
      && NoWhitespace(w.leftType) && '-' !in w.leftType && ',' !in w.leftType
      && NoWhitespace(w.rightType) && '-' !in w.rightType && ',' !in w.rightType
  {
    var ct := Halves(spec);
    var w := ParseContextSpec(spec).value;
    HalvesHaveNoWhitespace(spec);
    SplitPiecesFrom(StripWhitespace(spec), ',', 0);
    SplitPiecesFrom(StripWhitespace(spec), ',', 1);
    SplitPiecesFrom(ct[0], '-', 1);
    SplitPiecesFrom(ct[1], '-', 1);
    assert w.leftType == Split(ct[0], '-')[1];
    assert w.rightType == Split(ct[1], '-')[1];
    CharsFromCleanString(w.leftType, ct[0]);
    CharsFromCleanString(w.rightType, ct[1]);
  }

  lemma CharsFromCleanString(p: string, s: string)
    requires NoWhitespace(s)
    requires forall c :: c in p ==> c in s
    ensures NoWhitespace(p)
  {
    forall j | 0 <= j < |p|
      ensures !IsWhitespace(p[j])
    {
      assert p[j] in p;
      var k :| 0 <= k < |s| && s[k] == p[j];
    }
  }

  /** A character absent from the specification is absent from its stripped
      form. */
  lemma {:induction false} StripKeepsAbsent(s: string)
    ensures forall c :: c in StripWhitespace(s) ==> c in s
  {
    if |s| > 0 {
      StripKeepsAbsent(s[1..]);
    }
  }

  lemma HalvesHaveNoWhitespace(spec: string)
    ensures forall i :: 0 <= i < |Halves(spec)| ==> NoWhitespace(Halves(spec)[i])
  {
    var t := StripWhitespace(spec);
    forall i | 0 <= i < |Halves(spec)|
      ensures NoWhitespace(Halves(spec)[i])
    {
      SplitPiecesFrom(t, ',', i);
      CharsFromCleanString(Halves(spec)[i], t);
    }
  }

  /** Every character of a piece of `Split(s, d)` occurs in `s`, and none is
      the delimiter. */
  lemma SplitPiecesFrom(s: string, d: char, i: nat)
    requires i < |Split(s, d)|
    ensures forall c :: c in Split(s, d)[i] ==> c in s && c != d
  {
    if d in s {
      SplitAllPiecesFrom(s, d, i);
    }
  }

  lemma {:induction false} SplitAllPiecesFrom(s: string, d: char, i: nat)
    requires i < |SplitAll(s, d)|
    ensures forall c :: c in SplitAll(s, d)[i] ==> c in s
  {
    if |s| > 0 {
      var rest := SplitAll(s[1..], d);
      if s[0] == d {
        if i > 0 {
          SplitAllPiecesFrom(s[1..], d, i - 1);
        }
      } else {
        if i == 0 {
          SplitAllPiecesFrom(s[1..], d, 0);
        } else {
          SplitAllPiecesFrom(s[1..], d, i);
        }
      }
    }
  }

  /** `setSpanContext(String)`. */
  function SetSpanContext(b: Builder, spec: string): (r: Result<Builder, SpecError>)
    ensures r.Success? <==> ParseContextSpec(spec).Success?
    ensures r.Success? ==> r.value.meta == b.meta
  {
    var sc :- ParseContextSpec(spec);
    Success(b.(spanContext := Some(sc)))
  }

  /** `addEntry(name, value)`: `put` on the linked map. */
  function AddEntry(b: Builder, name: string, value: Value): (r: Builder)
    ensures r.spanContext == b.spanContext
    ensures Keys(r.meta) == if name in Keys(b.meta) then Keys(b.meta) else Keys(b.meta) + [name]
    ensures Get(r.meta, name) == Some(value)
    ensures forall k :: k != name ==> Get(r.meta, k) == Get(b.meta, k)
  {
    PutKeys(b.meta, name, value);
    b.(meta := Put(b.meta, name, value))
  }

  /** `fillMeta(pageIndex, pageInteger, pageLength, ctx, cutoff)`, with `None`
      for a `null` argument. */
  function FillMeta(b: Builder, pageIndex: Option<int>, pageInteger: Option<int>, pageLength: Option<int>,
                    ctx: Option<string>, cutoff: Option<bool>): (r: Result<Builder, SpecError>)
    ensures r.Success? <==> ctx.None? || ParseContextSpec(ctx.value).Success?
    ensures r.Failure? ==> ctx.Some? && r.error == ParseContextSpec(ctx.value).error
    ensures r.Success? ==> r.value.spanContext == if ctx.Some? then Some(ParseContextSpec(ctx.value).value) else b.spanContext
  {
    var b1 := AddEntryIf(b, pageIndex.Some?, "startIndex", Int(pageIndex.GetOr(0)));
    var b2 := AddEntryIf(b1, pageIndex.None? && pageInteger.Some?, "startPage", Int(pageInteger.GetOr(0)));
    var b3 := AddEntryIf(b2, pageLength.Some?, "count", Int(pageLength.GetOr(0)));
    if ctx.None? then Success(AddEntryIf(b3, cutoff.Some?, "cutOff", Bool(cutoff.GetOr(false))))
    else match SetSpanContext(b3, ctx.value)
      case Failure(e) => Failure(e)
      case Success(b4) => Success(AddEntryIf(b4, cutoff.Some?, "cutOff", Bool(cutoff.GetOr(false))))
  }

  /** Pagination precedence: `startIndex` is set exactly when `pageIndex` is
      given and `startPage` only when `pageIndex` is absent and `pageInteger`
      present; absent arguments leave their keys untouched. */
  lemma FillMetaPagination(b: Builder, pageIndex: Option<int>, pageInteger: Option<int>, pageLength: Option<int>,
                           ctx: Option<string>, cutoff: Option<bool>)
    requires FillMeta(b, pageIndex, pageInteger, pageLength, ctx, cutoff).Success?
    ensures var m := FillMeta(b, pageIndex, pageInteger, pageLength, ctx, cutoff).value.meta;
      Get(m, "startIndex") == if pageIndex.Some? then Some(Int(pageIndex.value)) else Get(b.meta, "startIndex")
    ensures var m := FillMeta(b, pageIndex, pageInteger, pageLength, ctx, cutoff).value.meta;
      Get(m, "startPage") == if pageIndex.None? && pageInteger.Some? then Some(Int(pageInteger.value)) else Get(b.meta, "startPage")
  {
    FillMetaKeysDistinct();
    var b1, b2, b3, b5 := FillMetaStages(b, pageIndex, pageInteger, pageLength, ctx, cutoff);
    PaginationEntries(b, pageIndex, pageInteger, pageLength);
    AddEntryIfOther(b3, cutoff.Some?, "cutOff", Bool(cutoff.GetOr(false)), "startIndex");
    AddEntryIfOther(b3, cutoff.Some?, "cutOff", Bool(cutoff.GetOr(false)), "startPage");
  }

  /** The three pagination entries, before the context and `cutOff`. */
  lemma PaginationEntries(b: Builder, pageIndex: Option<int>, pageInteger: Option<int>, pageLength: Option<int>)
    ensures var b3 := AddEntryIf(AddEntryIf(AddEntryIf(b, pageIndex.Some?, "startIndex", Int(pageIndex.GetOr(0))),
                        pageIndex.None? && pageInteger.Some?, "startPage", Int(pageInteger.GetOr(0))),
                        pageLength.Some?, "count", Int(pageLength.GetOr(0)));
      && Get(b3.meta, "startIndex") == (if pageIndex.Some? then Some(Int(pageIndex.value)) else Get(b.meta, "startIndex"))
      && Get(b3.meta, "startPage") == (if pageIndex.None? && pageInteger.Some? then Some(Int(pageInteger.value)) else Get(b.meta, "startPage"))
      && Get(b3.meta, "count") == (if pageLength.Some? then Some(Int(pageLength.value)) else Get(b.meta, "count"))
  {
    FillMetaKeysDistinct();
    var b1 := AddEntryIf(b, pageIndex.Some?, "startIndex", Int(pageIndex.GetOr(0)));
    var b2 := AddEntryIf(b1, pageIndex.None? && pageInteger.Some?, "startPage", Int(pageInteger.GetOr(0)));
    AddEntryIfOther(b1, pageIndex.None? && pageInteger.Some?, "startPage", Int(pageInteger.GetOr(0)), "startIndex");
    AddEntryIfOther(b2, pageLength.Some?, "count", Int(pageLength.GetOr(0)), "startIndex");
    AddEntryIfOther(b2, pageLength.Some?, "count", Int(pageLength.GetOr(0)), "startPage");
    AddEntryIfOther(b, pageIndex.Some?, "startIndex", Int(pageIndex.GetOr(0)), "startPage");
    AddEntryIfOther(b, pageIndex.Some?, "startIndex", Int(pageIndex.GetOr(0)), "count");
    AddEntryIfOther(b1, pageIndex.None? && pageInteger.Some?, "startPage", Int(pageInteger.GetOr(0)), "count");
  }

  /** On a builder with neither key, one `fillMeta` call never adds both
      `startIndex` and `startPage`. */
  lemma FillMetaNeverBothStarts(b: Builder, pageIndex: Option<int>, pageInteger: Option<int>, pageLength: Option<int>,
                                ctx: Option<string>, cutoff: Option<bool>)
    requires FillMeta(b, pageIndex, pageInteger, pageLength, ctx, cutoff).Success?
    requires Get(b.meta, "startIndex").None? && Get(b.meta, "startPage").None?
    ensures var m := FillMeta(b, pageIndex, pageInteger, pageLength, ctx, cutoff).value.meta;
      !(Get(m, "startIndex").Some? && Get(m, "startPage").Some?)
  {
    FillMetaPagination(b, pageIndex, pageInteger, pageLength, ctx, cutoff);
  }

  /** `count` is set exactly when `pageLength` is given and `cutOff` exactly
      when `cutoff` is given. */
  lemma FillMetaCountAndCutOff(b: Builder, pageIndex: Option<int>, pageInteger: Option<int>, pageLength: Option<int>,
                               ctx: Option<string>, cutoff: Option<bool>)
    requires FillMeta(b, pageIndex, pageInteger, pageLength, ctx, cutoff).Success?
    ensures var m := FillMeta(b, pageIndex, pageInteger, pageLength, ctx, cutoff).value.meta;
      Get(m, "count") == if pageLength.Some? then Some(Int(pageLength.value)) else Get(b.meta, "count")
    ensures var m := FillMeta(b, pageIndex, pageInteger, pageLength, ctx, cutoff).value.meta;
      Get(m, "cutOff") == if cutoff.Some? then Some(Bool(cutoff.value)) else Get(b.meta, "cutOff")
  {
    FillMetaKeysDistinct();
    var b1, b2, b3, b5 := FillMetaStages(b, pageIndex, pageInteger, pageLength, ctx, cutoff);
    PaginationEntries(b, pageIndex, pageInteger, pageLength);
    AddEntryIfOther(b3, cutoff.Some?, "cutOff", Bool(cutoff.GetOr(false)), "count");
    AddEntryIfOther(b2, pageLength.Some?, "count", Int(pageLength.GetOr(0)), "cutOff");
    AddEntryIfOther(b1, pageIndex.None? && pageInteger.Some?, "startPage", Int(pageInteger.GetOr(0)), "cutOff");
    AddEntryIfOther(b, pageIndex.Some?, "startIndex", Int(pageIndex.GetOr(0)), "cutOff");
  }

  lemma FillMetaKeysDistinct()
    ensures "startIndex" != "startPage" && "startIndex" != "count" && "startIndex" != "cutOff"
    ensures "startPage" != "count" && "startPage" != "cutOff" && "count" != "cutOff"
  {
    assert "startIndex"[5] != "startPage"[5];
    assert "startIndex"[0] != "count"[0] && "startIndex"[0] != "cutOff"[0];
    assert "startPage"[0] != "count"[0] && "startPage"[0] != "cutOff"[0];
    assert "count"[1] != "cutOff"[1];
  }

  /** The builder after the three pagination entries, and the final one.
      This only names the intermediate steps of `FillMeta` for the proofs;
      the key-by-key lemmas above state what `fillMeta` does. */
  lemma FillMetaStages(b: Builder, pageIndex: Option<int>, pageInteger: Option<int>, pageLength: Option<int>,
                       ctx: Option<string>, cutoff: Option<bool>)
    returns (b1: Builder, b2: Builder, b3: Builder, b5: Builder)
    requires FillMeta(b, pageIndex, pageInteger, pageLength, ctx, cutoff).Success?
    ensures b1 == AddEntryIf(b, pageIndex.Some?, "startIndex", Int(pageIndex.GetOr(0)))
    ensures b2 == AddEntryIf(b1, pageIndex.None? && pageInteger.Some?, "startPage", Int(pageInteger.GetOr(0)))
    ensures b3 == AddEntryIf(b2, pageLength.Some?, "count", Int(pageLength.GetOr(0)))
    ensures b5 == FillMeta(b, pageIndex, pageInteger, pageLength, ctx, cutoff).value
    ensures b5.meta == AddEntryIf(b3, cutoff.Some?, "cutOff", Bool(cutoff.GetOr(false))).meta
  {
    b1 := AddEntryIf(b, pageIndex.Some?, "startIndex", Int(pageIndex.GetOr(0)));
    b2 := AddEntryIf(b1, pageIndex.None? && pageInteger.Some?, "startPage", Int(pageInteger.GetOr(0)));
    b3 := AddEntryIf(b2, pageLength.Some?, "count", Int(pageLength.GetOr(0)));
    var b4 := if ctx.None? then b3 else SetSpanContext(b3, ctx.value).value;
    b5 := AddEntryIf(b4, cutoff.Some?, "cutOff", Bool(cutoff.GetOr(false)));
  }

  /** `fillMeta` touches no other key and moves no existing key. */
  lemma FillMetaLeavesOthers(b: Builder, pageIndex: Option<int>, pageInteger: Option<int>, pageLength: Option<int>,
                             ctx: Option<string>, cutoff: Option<bool>)
    requires FillMeta(b, pageIndex, pageInteger, pageLength, ctx, cutoff).Success?
    ensures var m := FillMeta(b, pageIndex, pageInteger, pageLength, ctx, cutoff).value.meta;
      && Keys(b.meta) <= Keys(m)
      && forall k :: k != "startIndex" && k != "startPage" && k != "count" && k != "cutOff" ==> Get(m, k) == Get(b.meta, k)
  {
    var b1, b2, b3, b5 := FillMetaStages(b, pageIndex, pageInteger, pageLength, ctx, cutoff);
    forall k | k != "startIndex" && k != "startPage" && k != "count" && k != "cutOff"
      ensures Get(b5.meta, k) == Get(b.meta, k)
    {
      AddEntryIfOther(b, pageIndex.Some?, "startIndex", Int(pageIndex.GetOr(0)), k);
      AddEntryIfOther(b1, pageIndex.None? && pageInteger.Some?, "startPage", Int(pageInteger.GetOr(0)), k);
      AddEntryIfOther(b2, pageLength.Some?, "count", Int(pageLength.GetOr(0)), k);
      AddEntryIfOther(b3, cutoff.Some?, "cutOff", Bool(cutoff.GetOr(false)), k);
    }
  }

  /** One guarded `addEntry` of `fillMeta`. */
  function AddEntryIf(b: Builder, present: bool, name: string, value: Value): (r: Builder)
    ensures r.spanContext == b.spanContext
    ensures Keys(b.meta) <= Keys(r.meta)
    ensures Get(r.meta, name) == if present then Some(value) else Get(b.meta, name)
  {
    if present then AddEntry(b, name, value) else b
  }

  /** A guarded `addEntry` leaves every other key as it was. */
  lemma AddEntryIfOther(b: Builder, present: bool, name: string, value: Value, k: string)
    requires k != name
    ensures Get(AddEntryIf(b, present, name, value).meta, k) == Get(b.meta, k)
  {
  }

  /** The value `SpanContext.raw()` stores under `context`: `[type, size]`
      lists for left and right, type first, or the preset string. */
  function ContextValue(sc: SpanContext): (r: Value)
    ensures sc.Preset? <==> r.Str?
    ensures sc.Window? <==> r.Object?
    ensures sc.Window? ==> Keys(r.fields) == ["left", "right"]
  {
    match sc
    case Window(ls, lt, rs, rt) =>
      Object([("left", List([Str(lt), Int(ls)])), ("right", List([Str(rt), Int(rs)]))])
    case Preset(c) => Str(c)
  }

  /** `raw()`: the accumulated map with the context block put in under
      `context` when a span context was set. */
  function Raw(b: Builder): (r: OMap<string, Value>)
    ensures b.spanContext.None? ==> r == b.meta
    ensures b.spanContext.Some? ==> Get(r, "context") == Some(ContextValue(b.spanContext.value))
    ensures forall k :: k != "context" ==> Get(r, k) == Get(b.meta, k)
    ensures Keys(r) == if b.spanContext.Some? && "context" !in Keys(b.meta) then Keys(b.meta) + ["context"] else Keys(b.meta)
  {
    match b.spanContext
    case None => b.meta
    case Some(sc) =>
      PutAllOne(b.meta, "context", ContextValue(sc));
      PutKeys(b.meta, "context", ContextValue(sc));
      PutAll(b.meta, [("context", ContextValue(sc))])
  }

  /** Reading the `context` value back gives the context that produced it:
      the preset string, or each side's unit and size. */
  lemma ContextValueReadsBack(sc: SpanContext)
    ensures sc.Preset? ==> ContextValue(sc).s == sc.context
    ensures sc.Window? ==> TypeAndSize(Get(ContextValue(sc).fields, "left")) == Some((sc.leftType, sc.leftSize))
    ensures sc.Window? ==> TypeAndSize(Get(ContextValue(sc).fields, "right")) == Some((sc.rightType, sc.rightSize))
  {
    if sc.Window? {
      var l, r := ("left", List([Str(sc.leftType), Int(sc.leftSize)])), ("right", List([Str(sc.rightType), Int(sc.rightSize)]));
      assert [l, r][1..] == [r];
      assert "left" != "right";
    }
  }

  /** `raw()` loses nothing: different contexts give different `context`
      values. */
  lemma ContextValueInjective(a: SpanContext, b: SpanContext)
    requires ContextValue(a) == ContextValue(b)
    ensures a == b
  {
    ContextValueReadsBack(a);
    ContextValueReadsBack(b);
  }

  /** `raw()` never duplicates a key. */
  lemma RawKeepsUnique(b: Builder)
    requires Unique(b.meta)
    ensures Unique(Raw(b))
  {
    if b.spanContext.Some? {
      PutAllKeepsUnique(b.meta, [("context", ContextValue(b.spanContext.value))]);
    }
  }

  /** `addEntry` never duplicates a key. */
  lemma AddEntryKeepsUnique(b: Builder, name: string, value: Value)
    requires Unique(b.meta)
    ensures Unique(AddEntry(b, name, value).meta)
  {
    PutKeepsUnique(b.meta, name, value);
  }

  /** `fillMeta` never duplicates a key. */
  lemma FillMetaKeepsUnique(b: Builder, pageIndex: Option<int>, pageInteger: Option<int>, pageLength: Option<int>,
                            ctx: Option<string>, cutoff: Option<bool>)
    requires Unique(b.meta) && FillMeta(b, pageIndex, pageInteger, pageLength, ctx, cutoff).Success?
    ensures Unique(FillMeta(b, pageIndex, pageInteger, pageLength, ctx, cutoff).value.meta)
  {
    var b1, b2, b3, b5 := FillMetaStages(b, pageIndex, pageInteger, pageLength, ctx, cutoff);
    PutKeepsUnique(b.meta, "startIndex", Int(pageIndex.GetOr(0)));
    PutKeepsUnique(b1.meta, "startPage", Int(pageInteger.GetOr(0)));
    PutKeepsUnique(b2.meta, "count", Int(pageLength.GetOr(0)));
    PutKeepsUnique(b3.meta, "cutOff", Bool(cutoff.GetOr(false)));
  }

  /** `raw()` writes the context block into the builder's own map; this is the
      builder afterwards. */
  function AfterRaw(b: Builder): Builder {
    b.(meta := Raw(b))
  }

  /** Reading the map out twice gives the same map. */
  lemma RawIdempotent(b: Builder)
    ensures Raw(AfterRaw(b)) == Raw(b)
  {
    if b.spanContext.Some? {
      var v := ContextValue(b.spanContext.value);
      PutAllOne(b.meta, "context", v);
      PutAllOne(Put(b.meta, "context", v), "context", v);
      PutTwice(b.meta, "context", v);
    }
  }

  /** A context string starting with `s` or `p` is stored verbatim, and the
      map read out holds exactly that string under `context`. */
  lemma PresetContextIsVerbatim(b: Builder, spec: string)
    requires StartsWithPreset(spec)
    ensures SetSpanContext(b, spec) == Success(b.(spanContext := Some(Preset(spec))))
    ensures Get(Raw(SetSpanContext(b, spec).value), "context") == Some(Str(spec))
  {
  }

  /** The composite text `size-type,size-type` of a window with non-negative
      sizes. */
  function WindowSpec(ls: nat, lt: string, rs: nat, rt: string): string {
    NatToString(ls) + "-" + lt + "," + NatToString(rs) + "-" + rt
  }

  /** Reads a `[type, size]` list. */
  function TypeAndSize(v: Option<Value>): Option<(string, int)> {
    if v.Some? && v.value.List? && |v.value.items| == 2 && v.value.items[0].Str? && v.value.items[1].Int?
    then Some((v.value.items[0].s, v.value.items[1].i))
    else None
  }

  /** Prints the `context` value that `raw()` produces back as a
      specification string, when it has one of the two shapes. */
  function ContextSpecOf(v: Value): Option<string> {
    match v
    case Str(c) => Some(c)
    case Object(fs) =>
      var left, right := TypeAndSize(Get(fs, "left")), TypeAndSize(Get(fs, "right"));
      if left.Some? && right.Some? && left.value.1 >= 0 && right.value.1 >= 0
      then Some(WindowSpec(left.value.1, left.value.0, right.value.1, right.value.0))
      else None
    case _ => None
  }

  /** The contexts a specification string can express. */
  predicate Expressible(sc: SpanContext) {
    match sc
    case Window(ls, lt, rs, rt) =>
      0 <= ls <= IntMax && 0 <= rs <= IntMax && PrintableType(lt) && PrintableType(rt)
    case Preset(c) => StartsWithPreset(c)
  }

  /** Parsing the composite text of a window gives back that window. */
  lemma WindowSpecParses(ls: nat, lt: string, rs: nat, rt: string)
    requires ls <= IntMax && rs <= IntMax && PrintableType(lt) && PrintableType(rt)
    ensures ParseContextSpec(WindowSpec(ls, lt, rs, rt)) == Success(Window(ls, lt, rs, rt))
  {
    WindowSpecHalves(ls, lt, rs, rt);
    HalfParses(ls, lt);
    HalfParses(rs, rt);
  }

  /** The composite text of a window is not a preset, and cuts into its two
      halves. */
  lemma WindowSpecHalves(ls: nat, lt: string, rs: nat, rt: string)
    requires PrintableType(lt) && PrintableType(rt)
    ensures !StartsWithPreset(WindowSpec(ls, lt, rs, rt))
    ensures Halves(WindowSpec(ls, lt, rs, rt)) == [NatToString(ls) + "-" + lt, NatToString(rs) + "-" + rt]
  {
    var dl, dr := NatToString(ls), NatToString(rs);
    DigitsHaveNoSeparators(dl);
    DigitsHaveNoSeparators(dr);
    var h1, h2 := dl + "-" + lt, dr + "-" + rt;
    var text := WindowSpec(ls, lt, rs, rt);
    assert Join([h1, h2], ',') == h1 + [','] + Join([h2], ',');
    assert text == Join([h1, h2], ',');
    assert ',' !in h1 && ',' !in h2;
    assert NoWhitespace(text) by {
      NoWhitespaceConcat(dl, "-");
      NoWhitespaceConcat(dl + "-", lt);
      NoWhitespaceConcat(h1, ",");
      NoWhitespaceConcat(dr, "-");
      NoWhitespaceConcat(dr + "-", rt);
      NoWhitespaceConcat(h1 + ",", h2);
      assert text == h1 + "," + h2;
    }
    StripWithoutWhitespace(text);
    SplitJoin([h1, h2], ',');
    assert text[0] == dl[0];
  }

  /** One half `<n>-<type>` reads back as its size and unit. */
  lemma HalfParses(n: nat, t: string)
    requires n <= IntMax && PrintableType(t)
    ensures SizeAndType(Split(NatToString(n) + "-" + t, '-')) == Success((n, t))
  {
    var d := NatToString(n);
    DigitsHaveNoSeparators(d);
    assert d + "-" + t == Join([d, t], '-');
    SplitJoin([d, t], '-');
    ParseIntOfNatToString(n);
  }

  lemma DigitsHaveNoSeparators(s: string)
    requires AllDigits(s)
    ensures '-' !in s && ',' !in s && NoWhitespace(s)
  {
  }

  /** Parsing what the `context` value of `raw()` prints gives back the same
      context, for both shapes. */
  lemma ContextSpecRoundTrip(sc: SpanContext)
    requires Expressible(sc)
    ensures ContextSpecOf(ContextValue(sc)).Some?
    ensures ParseContextSpec(ContextSpecOf(ContextValue(sc)).value) == Success(sc)
  {
    if sc.Window? {
      WindowValuePrints(sc.leftSize, sc.leftType, sc.rightSize, sc.rightType);
      WindowSpecParses(sc.leftSize, sc.leftType, sc.rightSize, sc.rightType);
    }
  }

  /** The `context` value of a window with non-negative sizes prints as its
      composite text. */
  lemma WindowValuePrints(ls: nat, lt: string, rs: nat, rt: string)
    ensures ContextSpecOf(ContextValue(Window(ls, lt, rs, rt))) == Some(WindowSpec(ls, lt, rs, rt))
  {
    var l, r := ("left", List([Str(lt), Int(ls)])), ("right", List([Str(rt), Int(rs)]));
    assert Get([l, r], "left") == Some(l.1);
    assert [l, r][1..] == [r];
    assert "left" != "right";
    assert Get([l, r], "right") == Some(r.1);
  }

  /** Whitespace anywhere in a composite specification is ignored: the map
      read out holds `{left: [lt, L], right: [rt, R]}` under `context`. */
  lemma CompositeSpecIgnoresWhitespace(b: Builder, spec: string, ls: nat, lt: string, rs: nat, rt: string)
    requires ls <= IntMax && rs <= IntMax && PrintableType(lt) && PrintableType(rt)
    requires StripWhitespace(spec) == WindowSpec(ls, lt, rs, rt)
    ensures ParseContextSpec(spec) == Success(Window(ls, lt, rs, rt))
    ensures SetSpanContext(b, spec).Success?
    ensures Get(Raw(SetSpanContext(b, spec).value), "context")
         == Some(Object([("left", List([Str(lt), Int(ls)])), ("right", List([Str(rt), Int(rs)]))]))
  {
    var text := WindowSpec(ls, lt, rs, rt);
    WindowSpecParses(ls, lt, rs, rt);
    StripIdempotent(spec);
    assert Halves(spec) == Halves(text);
    assert !StartsWithPreset(text);
    assert !StartsWithPreset(spec) by {
      if !IsWhitespace(spec[0]) {
        StripFirst(spec);
      }
    }
  }

  /** A half that splits into fewer than two pieces has no type, and the
      specification is rejected: this covers a half without `-` as well as
      `5-` or `3--`, whose trailing empty pieces `split` drops. */
  lemma HalfWithoutTypeFails(spec: string, i: nat)
    requires !StartsWithPreset(spec)
    requires i < 2 <= |Halves(spec)| && |Split(Halves(spec)[i], '-')| < 2
    ensures ParseContextSpec(spec).Failure?
  {
  }

  /** A size piece that is not an integer makes the specification fail with a
      `NumberFormatException` for it, when the pieces before it are fine. */
  lemma NonNumericSizeFails(spec: string, i: nat)
    requires !StartsWithPreset(spec)
    requires i < 2 <= |Halves(spec)|
    requires |Split(Halves(spec)[i], '-')| > 0
    requires ParseInt(Split(Halves(spec)[i], '-')[0]).None?
    ensures ParseContextSpec(spec).Failure?
  {
    var pieces := Split(Halves(spec)[i], '-');
    assert SizeAndType(pieces).Failure?;
  }

  /** One call of either `setSpanContext` overload. */
  datatype ContextCall =
    | ByWindow(left: int, leftType: string, right: int, rightType: string)
    | BySpec(spec: string)

  function ApplyContextCall(b: Builder, c: ContextCall): Result<Builder, SpecError> {
    match c
    case ByWindow(l, lt, r, rt) => Success(SetSpanContextWindow(b, l, lt, r, rt))
    case BySpec(spec) => SetSpanContext(b, spec)
  }

  /** The calls applied in order, stopping at the first exception. */
  function ApplyContextCalls(b: Builder, cs: seq<ContextCall>): Result<Builder, SpecError>
    decreases |cs|
  {
    if |cs| == 0 then Success(b)
    else
      var b1 :- ApplyContextCall(b, cs[0]);
      ApplyContextCalls(b1, cs[1..])
  }

  /** The context one call sets. */
  function ContextOfCall(c: ContextCall): Result<SpanContext, SpecError> {
    match c
    case ByWindow(l, lt, r, rt) => Success(Window(l, lt, r, rt))
    case BySpec(spec) => ParseContextSpec(spec)
  }

  /** After any sequence of `setSpanContext` calls of either overload, the
      most recent one determines the context and the entries are untouched. */
  lemma {:induction false} LastContextCallWins(b: Builder, cs: seq<ContextCall>)
    requires |cs| > 0 && ApplyContextCalls(b, cs).Success?
    ensures ContextOfCall(cs[|cs| - 1]).Success?
    ensures ApplyContextCalls(b, cs).value.spanContext == Some(ContextOfCall(cs[|cs| - 1]).value)
    ensures ApplyContextCalls(b, cs).value.meta == b.meta
    decreases |cs|
  {
    var b1 := ApplyContextCall(b, cs[0]).value;
    if |cs| > 1 {
      LastContextCallWins(b1, cs[1..]);
      assert cs[1..][|cs[1..]| - 1] == cs[|cs| - 1];
    }
  }
}

=== FILE: ordered_map.dfy ===
/** An insertion-ordered map, modelled as an association list, with the
    behaviour of Java's `LinkedHashMap`: putting a key that is already present
    replaces its value in place and keeps its position; a new key goes last. */
module OrderedMap {
  import opened Wrappers

  type OMap<K, V> = seq<(K, V)>

  /** The keys in iteration order. */
  function Keys<K, V>(m: OMap<K, V>): (ks: seq<K>)
    ensures |ks| == |m|
    ensures forall i :: 0 <= i < |m| ==> ks[i] == m[i].0
  {
    if |m| == 0 then [] else [m[0].0] + Keys(m[1..])
  }

  /** No key occurs twice: `Put` and `PutAll` keep this (`PutKeepsUnique`,
      `PutAllKeepsUnique`). */
  ghost predicate Unique<K, V>(m: OMap<K, V>) {
    forall i, j :: 0 <= i < j < |m| ==> m[i].0 != m[j].0
  }

  /** `Map.get`: the value stored under `k`, if any. */
  function Get<K(==,!new), V>(m: OMap<K, V>, k: K): (r: Option<V>)
  {
    if |m| == 0 then None
    else if m[0].0 == k then Some(m[0].1)
    else Get(m[1..], k)
  }

  /** A key has a value exactly when it is among the keys. */
  lemma {:induction false} GetSomeIffKey<K(!new), V>(m: OMap<K, V>, k: K)
    ensures Get(m, k).Some? <==> k in Keys(m)
  {
    if |m| > 0 {
      GetSomeIffKey(m[1..], k);
    }
  }

  /** `Map.put` on a `LinkedHashMap`. */
  function Put<K(==,!new), V>(m: OMap<K, V>, k: K, v: V): (r: OMap<K, V>)
    ensures |m| <= |r| <= |m| + 1
    ensures Get(r, k) == Some(v)
    ensures forall k' :: k' != k ==> Get(r, k') == Get(m, k')
  {
    if |m| == 0 then [(k, v)]
    else if m[0].0 == k then [(k, v)] + m[1..]
    else [m[0]] + Put(m[1..], k, v)
  }

  /** A key already present keeps its position; a new key goes last. */
  lemma {:induction false} PutKeys<K(!new), V>(m: OMap<K, V>, k: K, v: V)
    ensures Keys(Put(m, k, v)) == if k in Keys(m) then Keys(m) else Keys(m) + [k]
  {
    if |m| > 0 && m[0].0 != k {
      PutKeys(m[1..], k, v);
    }
  }

  /** A new key is appended. */
  lemma {:induction false} PutNew<K(!new), V>(m: OMap<K, V>, k: K, v: V)
    requires k !in Keys(m)
    ensures Put(m, k, v) == m + [(k, v)]
  {
    if |m| > 0 {
      PutNew(m[1..], k, v);
      assert [m[0]] + (m[1..] + [(k, v)]) == m + [(k, v)];
    }
  }

  /** Entries under other keys keep their positions and values. */
  lemma {:induction false} PutKeepsOthers<K(!new), V>(m: OMap<K, V>, k: K, v: V)
    ensures forall i :: 0 <= i < |m| && m[i].0 != k ==> Put(m, k, v)[i] == m[i]
  {
    if |m| > 0 && m[0].0 != k {
      PutKeepsOthers(m[1..], k, v);
    }
  }

  /** `put` never duplicates a key. */
  lemma {:induction false} PutKeepsUnique<K(!new), V>(m: OMap<K, V>, k: K, v: V)
    requires Unique(m)
    ensures Unique(Put(m, k, v))
  {
    var p := Put(m, k, v);
    if |m| > 0 && m[0].0 != k {
      var t := Put(m[1..], k, v);
      assert Unique(m[1..]);
      PutKeepsUnique(m[1..], k, v);
      PutKeys(m[1..], k, v);
      KeyNotInTail(m);
      assert p == [m[0]] + t;
      forall i, j | 0 <= i < j < |p|
        ensures p[i].0 != p[j].0
      {
        assert p[j] == t[j - 1];
        if i == 0 {
          assert Keys(t)[j - 1] == t[j - 1].0;
        } else {
          assert p[i] == t[i - 1];
        }
      }
    } else if |m| > 0 {
      forall i | 0 <= i < |p|
        ensures p[i].0 == m[i].0
      {
      }
    }
  }

  /** `Map.putAll`: the entries of `n` are put into `m` one by one, in order. */
  function PutAll<K(==,!new), V>(m: OMap<K, V>, n: OMap<K, V>): (r: OMap<K, V>)
    decreases |n|
  {
    if |n| == 0 then m else PutAll(Put(m, n[0].0, n[0].1), n[1..])
  }

  /** Putting all of a one-entry map is one `put`. */
  lemma PutAllOne<K(!new), V>(m: OMap<K, V>, k: K, v: V)
    ensures PutAll(m, [(k, v)]) == Put(m, k, v)
  {
    assert [(k, v)][1..] == [];
  }

  /** `putAll` never duplicates a key. */
  lemma {:induction false} PutAllKeepsUnique<K(!new), V>(m: OMap<K, V>, n: OMap<K, V>)
    requires Unique(m)
    ensures Unique(PutAll(m, n))
    decreases |n|
  {
    if |n| > 0 {
      PutKeepsUnique(m, n[0].0, n[0].1);
      PutAllKeepsUnique(Put(m, n[0].0, n[0].1), n[1..]);
    }
  }

  /** The same association list read as a mathematical map. */
  ghost function ToMap<K, V>(m: OMap<K, V>): map<K, V>
  {
    if |m| == 0 then map[] else ToMap(m[1..])[m[0].0 := m[0].1]
  }

  /** `Get` agrees with the mathematical map when keys are unique. */
  lemma {:induction false} GetAgreesWithToMap<K(!new), V>(m: OMap<K, V>, k: K)
    requires Unique(m)
    ensures Get(m, k) == if k in ToMap(m) then Some(ToMap(m)[k]) else None
  {
    if |m| > 0 {
      assert Unique(m[1..]);
      GetAgreesWithToMap(m[1..], k);
    }
  }

  /** `Put` is map update on the mathematical map. */
  lemma {:induction false} PutIsMapUpdate<K(!new), V>(m: OMap<K, V>, k: K, v: V)
    ensures ToMap(Put(m, k, v)) == ToMap(m)[k := v]
  {
    if |m| > 0 {
      if m[0].0 != k {
        PutIsMapUpdate(m[1..], k, v);
        PutConsOther(m, k, v);
        UpdatesCommute(ToMap(m[1..]), k, v, m[0].0, m[0].1);
      } else {
        PutConsSame(m, v);
      }
    }
  }

  lemma PutConsOther<K(!new), V>(m: OMap<K, V>, k: K, v: V)
    requires |m| > 0 && m[0].0 != k
    ensures ToMap(Put(m, k, v)) == ToMap(Put(m[1..], k, v))[m[0].0 := m[0].1]
  {
    var p := Put(m, k, v);
    assert p[1..] == Put(m[1..], k, v);
  }

  lemma PutConsSame<K(!new), V>(m: OMap<K, V>, v: V)
    requires |m| > 0
    ensures ToMap(Put(m, m[0].0, v)) == ToMap(m)[m[0].0 := v]
  {
    var p := Put(m, m[0].0, v);
    assert p[1..] == m[1..];
  }

  lemma UpdatesCommute<K, V>(M: map<K, V>, a: K, x: V, b: K, y: V)
    requires a != b
    ensures M[a := x][b := y] == M[b := y][a := x]
  {
  }

  lemma KeyNotInTail<K, V>(m: OMap<K, V>)
    requires Unique(m) && |m| > 0
    ensures m[0].0 !in Keys(m[1..])
  {
  }

  lemma {:induction false} ToMapDomain<K, V>(m: OMap<K, V>)
    ensures ToMap(m).Keys == set k | k in Keys(m)
  {
    if |m| > 0 {
      ToMapDomain(m[1..]);
    }
  }

  /** Putting the same entry twice is the same as putting it once. */
  lemma {:induction false} PutTwice<K(!new), V>(m: OMap<K, V>, k: K, v: V)
    ensures Put(Put(m, k, v), k, v) == Put(m, k, v)
  {
    if |m| > 0 && m[0].0 != k {
      PutTwice(m[1..], k, v);
      assert Put(m, k, v)[1..] == Put(m[1..], k, v);
    }
  }

  /** `putAll` overlays `n` on `m`: keys of `n` take `n`'s value, every other
      key keeps the value it had in `m`. */
  lemma {:induction false} PutAllOverlays<K(!new), V>(m: OMap<K, V>, n: OMap<K, V>, k: K)
    requires Unique(n)
    ensures Get(PutAll(m, n), k) == if k in Keys(n) then Get(n, k) else Get(m, k)
    decreases |n|
  {
    if |n| > 0 {
      assert Unique(n[1..]);
      PutAllOverlays(Put(m, n[0].0, n[0].1), n[1..], k);
      if k == n[0].0 {
        KeyNotInTail(n);
      }
    }
  }

  /** `putAll` keeps the order of `m`'s keys and appends the new keys of `n`
      in `n`'s order: no key of `m` moves. */
  lemma {:induction false} PutAllKeepsPrefix<K(!new), V>(m: OMap<K, V>, n: OMap<K, V>)
    ensures Keys(m) <= Keys(PutAll(m, n))
    decreases |n|
  {
    if |n| > 0 {
      var m' := Put(m, n[0].0, n[0].1);
      PutAllKeepsPrefix(m', n[1..]);
      PutKeys(m, n[0].0, n[0].1);
    }
  }

  /** When `n` has unique keys, `putAll` is the right-biased union of maps. */
  lemma {:induction false} PutAllIsUnion<K(!new), V>(m: OMap<K, V>, n: OMap<K, V>)
    requires Unique(n)
    ensures ToMap(PutAll(m, n)) == ToMap(m) + ToMap(n)
    decreases |n|
  {
    if |n| > 0 {
      var m' := Put(m, n[0].0, n[0].1);
      PutIsMapUpdate(m, n[0].0, n[0].1);
      assert Unique(n[1..]);
      PutAllIsUnion(m', n[1..]);
      KeyNotInTail(n);
      ToMapDomain(n[1..]);
      UpdateThenUnion(ToMap(m), n[0].0, n[0].1, ToMap(n[1..]));
    }
  }

  lemma UpdateThenUnion<K, V>(M: map<K, V>, a: K, x: V, N: map<K, V>)
    requires a !in N
    ensures M[a := x] + N == M + N[a := x]
  {
  }
}

=== FILE: query_serializer.dfy ===
/** The query orchestrator: picks the translator for a query-language tag,
    keeps the translator's request map, the caller's metadata and the
    collection filter with its diagnostics, and merges them into one response
    map. The grammar translators and the collection translator are not part
    of this model; they enter as function parameters. */
module QuerySerializer {
  import opened Wrappers
  import opened OrderedMap
  import opened JavaStrings
  import opened Json
  import opened MetaQueryBuilder

  /** `QueryException`, with the status code when the constructor was given
      one. */
  datatype QueryException = QueryException(code: Option<int>, message: string)

  /** What a translator call can throw: a `QueryException`, or any other
      `java.lang.Exception`. */
  datatype Thrown = Query(exception: QueryException) | Unclassified

  /** The translator classes; `Cql(None)` is the constructor without a
      version, which uses the translator's default version. */
  datatype Grammar = PoliqarpPlus | Cosmas2 | Cql(version: Option<string>) | Annis

  type RequestMap = OMap<string, Value>

  /** Constructing a translator on a query either yields its request map or
      throws. */
  datatype Translation = Translated(requestMap: RequestMap) | Threw(thrown: Thrown)

  type Translator = (Grammar, string) -> Translation

  /** The entries `setCollection(String)` reads from the collection
      translator's request map; `None` stands for `null`. */
  datatype CollectionRequest = CollectionRequest(
    collection: Option<Value>,
    errors: Option<seq<Value>>,
    warnings: Option<seq<Value>>,
    messages: Option<seq<Value>>)

  type CollectionTranslator = string -> Result<CollectionRequest, Thrown>

  /** The serializer's fields; `ast` holds the request map of the translator
      of the last successful `setQuery`, `None` meaning `null`. */
  datatype Serializer = Serializer(
    ast: Option<RequestMap>,
    collection: Option<Value>,
    meta: Option<OMap<string, Value>>,
    errors: Option<seq<Value>>,
    warnings: Option<seq<Value>>,
    messages: Option<seq<Value>>)

  function NewSerializer(): Serializer {
    Serializer(None, None, None, None, None, None)
  }

  const NoContent := QueryException(Some(406), "No Content!")

  function Unsupported(ql: string): QueryException {
    QueryException(None, ql + " is not a supported query language!")
  }

  function Unparsable(query: string): QueryException {
    QueryException(None, "UNKNOWN: Query could not be parsed (" + query + ")")
  }

  /** The language registry, keyed by lower-case tag; `poliqarp` is an alias
      of `poliqarpplus`. */
  function Registry(version: Option<string>): map<string, Grammar> {
    map["poliqarp" := PoliqarpPlus, "poliqarpplus" := PoliqarpPlus, "cosmas2" := Cosmas2,
        "cql" := Cql(version), "annis" := Annis]
  }

  /** The tag tests of `setQuery`, in source order. */
  function SelectGrammar(ql: string, version: Option<string>): (r: Result<Grammar, QueryException>)
    ensures r.Success? <==> ToLower(ql) in Registry(version)
    ensures r.Success? ==> r.value == Registry(version)[ToLower(ql)]
    ensures r.Failure? ==> r.error == Unsupported(ql)
  {
    TagsAreLowerCase();
    EqualsIgnoreCaseIffLowerEqual(ql, "poliqarp");
    EqualsIgnoreCaseIffLowerEqual(ql, "cosmas2");
    EqualsIgnoreCaseIffLowerEqual(ql, "poliqarpplus");
    EqualsIgnoreCaseIffLowerEqual(ql, "cql");
    EqualsIgnoreCaseIffLowerEqual(ql, "annis");
    if EqualsIgnoreCase(ql, "poliqarp") then Success(PoliqarpPlus)
    else if EqualsIgnoreCase(ql, "cosmas2") then Success(Cosmas2)
    else if EqualsIgnoreCase(ql, "poliqarpplus") then Success(PoliqarpPlus)
    else if EqualsIgnoreCase(ql, "cql") then Success(Cql(version))
    else if EqualsIgnoreCase(ql, "annis") then Success(Annis)
    else Failure(Unsupported(ql))
  }

  lemma TagsAreLowerCase()
    ensures ToLower("poliqarp") == "poliqarp" && ToLower("poliqarpplus") == "poliqarpplus"
    ensures ToLower("cosmas2") == "cosmas2" && ToLower("cql") == "cql" && ToLower("annis") == "annis"
  {
    ToLowerOfLower("poliqarp");
    ToLowerOfLower("poliqarpplus");
    ToLowerOfLower("cosmas2");
    ToLowerOfLower("cql");
    ToLowerOfLower("annis");
  }

  /** `setQuery(query, ql, version)`, with `None` for `null` arguments. */
  function SetQuery(s: Serializer, translate: Translator, query: Option<string>, ql: Option<string>,
                    version: Option<string>): (r: Result<Serializer, QueryException>)
    ensures query.None? || query.value == "" ==> r == Failure(NoContent)
    ensures r.Success? ==> r.value.ast.Some? && r.value == s.(ast := r.value.ast)
    ensures query.Some? && query.value != "" && ql.None? ==> r == Failure(Unparsable(query.value))
    ensures query.Some? && query.value != "" && ql.Some? && ToLower(ql.value) !in Registry(version) ==>
      r == Failure(Unsupported(ql.value))
    ensures query.Some? && query.value != "" && ql.Some? && ToLower(ql.value) in Registry(version) ==>
      var t := translate(Registry(version)[ToLower(ql.value)], query.value);
      && (t.Translated? ==> r == Success(s.(ast := Some(t.requestMap))))
      && (t.Threw? && t.thrown.Query? ==> r == Failure(t.thrown.exception))
      && (t.Threw? && t.thrown.Unclassified? ==> r == Failure(Unparsable(query.value)))
  {
    if query.None? || query.value == "" then Failure(NoContent)
    else
      var q := query.value;
      var outcome :=
        if ql.None? then Threw(Unclassified)
        else match SelectGrammar(ql.value, version)
          case Failure(e) => Threw(Query(e))
          case Success(g) => translate(g, q);
      match outcome
      case Translated(rm) => Success(s.(ast := Some(rm)))
      case Threw(Query(e)) => Failure(e)
      case Threw(Unclassified) => Failure(Unparsable(q))
  }

  /** `setQuery(query, ql)`: the three-argument form with version `""`. */
  function SetQueryWithoutVersion(s: Serializer, translate: Translator, query: Option<string>, ql: Option<string>)
    : (r: Result<Serializer, QueryException>)
    ensures query.None? || query.value == "" ==> r == Failure(NoContent)
    ensures r.Success? ==> r.value.ast.Some? && r.value == s.(ast := r.value.ast)
    ensures query.Some? && query.value != "" && ql.Some? && ToLower(ql.value) == "cql"
            && translate(Cql(Some("")), query.value).Translated? ==>
      r == Success(s.(ast := Some(translate(Cql(Some("")), query.value).requestMap)))
  {
    TagsAreLowerCase();
    SetQuery(s, translate, query, ql, Some(""))
  }

  /** The version reaches only the CQL translator: for every other tag the
      two-argument form behaves as the three-argument form with any
      version. */
  lemma VersionOnlyMattersForCql(s: Serializer, translate: Translator, query: Option<string>, ql: Option<string>,
                                 version: Option<string>)
    requires ql.None? || ToLower(ql.value) != "cql"
    ensures SetQueryWithoutVersion(s, translate, query, ql) == SetQuery(s, translate, query, ql, version)
  {
    if query.Some? && query.value != "" && ql.Some? && ToLower(ql.value) in Registry(version) {
      assert Registry(version)[ToLower(ql.value)] == Registry(Some(""))[ToLower(ql.value)];
    }
  }

  /** Tags that differ only in case select the same translator. */
  lemma SetQueryIgnoresCase(s: Serializer, translate: Translator, query: Option<string>, a: string, b: string,
                            version: Option<string>)
    requires EqualsIgnoreCase(a, b) && ToLower(a) in Registry(version)
    ensures SetQuery(s, translate, query, Some(a), version) == SetQuery(s, translate, query, Some(b), version)
  {
    EqualsIgnoreCaseIffLowerEqual(a, b);
  }

  /** `poliqarp` and `poliqarpplus`, in any case, select the same
      translator. */
  lemma PoliqarpIsAlias(s: Serializer, translate: Translator, query: Option<string>, a: string, b: string,
                        version: Option<string>)
    requires EqualsIgnoreCase(a, "poliqarp") && EqualsIgnoreCase(b, "poliqarpplus")
    ensures SetQuery(s, translate, query, Some(a), version) == SetQuery(s, translate, query, Some(b), version)
  {
    TagsAreLowerCase();
    EqualsIgnoreCaseIffLowerEqual(a, "poliqarp");
    EqualsIgnoreCaseIffLowerEqual(b, "poliqarpplus");
  }

  /** The CQL translator gets the version as given: `null` selects the
      default-version constructor, and the two-argument `setQuery` passes
      `""`, not `null`. */
  lemma CqlVersionPassing(s: Serializer, translate: Translator, query: string, ql: string, version: Option<string>)
    requires query != "" && EqualsIgnoreCase(ql, "cql")
    ensures translate(Cql(version), query).Translated? ==>
      SetQuery(s, translate, Some(query), Some(ql), version)
        == Success(s.(ast := Some(translate(Cql(version), query).requestMap)))
    ensures translate(Cql(Some("")), query).Translated? ==>
      SetQueryWithoutVersion(s, translate, Some(query), Some(ql))
        == Success(s.(ast := Some(translate(Cql(Some("")), query).requestMap)))
  {
    TagsAreLowerCase();
    EqualsIgnoreCaseIffLowerEqual(ql, "cql");
  }

  /** The dispatch of `run`: only the exact lower-case tag `poliqarp` is
      accepted as the alias, while the other tags are lower-cased first. */
  function RunDispatch(ql: string): (r: Result<Grammar, QueryException>)
    ensures r.Success? <==> ql == "poliqarp" || (ToLower(ql) in Registry(None) && ToLower(ql) != "poliqarp")
    ensures r.Success? ==> ToLower(ql) in Registry(None) && r.value == Registry(None)[ToLower(ql)]
    ensures r.Failure? ==> r.error == Unsupported(ql)
  {
    TagsAreLowerCase();
    if ql == "poliqarp" then Success(PoliqarpPlus)
    else if ToLower(ql) == "cosmas2" then Success(Cosmas2)
    else if ToLower(ql) == "poliqarpplus" then Success(PoliqarpPlus)
    else if ToLower(ql) == "cql" then Success(Cql(None))
    else if ToLower(ql) == "annis" then Success(Annis)
    else Failure(Unsupported(ql))
  }

  /** `run(query, ql, outFile)` up to the serialisation: no empty-query check
      and no wrapping of the translator's exceptions. */
  function Run(s: Serializer, translate: Translator, query: string, ql: Option<string>): (r: Result<Serializer, Thrown>)
    ensures ql.None? ==> r == Failure(Unclassified)
    ensures ql.Some? && RunDispatch(ql.value).Failure? ==> r == Failure(Query(Unsupported(ql.value)))
    ensures ql.Some? && RunDispatch(ql.value).Success? ==>
      match translate(RunDispatch(ql.value).value, query)
      case Translated(rm) => r == Success(s.(ast := Some(rm)))
      case Threw(t) => r == Failure(t)
  {
    if ql.None? then Failure(Unclassified)
    else match RunDispatch(ql.value)
      case Failure(e) => Failure(Query(e))
      case Success(g) =>
        match translate(g, query)
        case Translated(rm) => Success(s.(ast := Some(rm)))
        case Threw(t) => Failure(t)
  }

  /** On a lower-case registered tag and a non-empty query, `run` and
      `setQuery` with a `null` version select the same translator and keep the
      same map; they part only on an exception that is not a
      `QueryException`, which `setQuery` wraps and `run` passes on. */
  lemma RunAgreesWithSetQuery(s: Serializer, translate: Translator, query: string, ql: string)
    requires query != "" && ToLower(ql) == ql && ql in Registry(None)
    ensures var t := translate(Registry(None)[ql], query);
      && (t.Translated? ==>
            && Run(s, translate, query, Some(ql)) == Success(s.(ast := Some(t.requestMap)))
            && SetQuery(s, translate, Some(query), Some(ql), None) == Success(s.(ast := Some(t.requestMap))))
      && (t.Threw? && t.thrown.Query? ==>
            && Run(s, translate, query, Some(ql)) == Failure(t.thrown)
            && SetQuery(s, translate, Some(query), Some(ql), None) == Failure(t.thrown.exception))
      && (t.Threw? && t.thrown.Unclassified? ==>
            && Run(s, translate, query, Some(ql)) == Failure(Unclassified)
            && SetQuery(s, translate, Some(query), Some(ql), None) == Failure(Unparsable(query)))
  {
    TagsAreLowerCase();
  }

  /** A tag `run` rejects although `setQuery` accepts it. */
  lemma RunIsCaseSensitiveForPoliqarp()
    ensures RunDispatch("Poliqarp").Failure?
    ensures SelectGrammar("Poliqarp", None) == Success(PoliqarpPlus)
  {
    assert ToLower("Poliqarp") == "poliqarp" by {
      assert ToLower("Poliqarp")[0] == 'p';
    }
    assert "Poliqarp" != "poliqarp" by {
      assert "Poliqarp"[0] != "poliqarp"[0];
    }
  }

  /** The failures of reading the translator's map in `raw()`: a cast to
      `Map` or `List` of a value of another kind, or a `null` list or map that
      the merge needs. */
  datatype BuildFailure = ClassCast(key: string) | NullPointer(key: string)

  /** `(Map) requestMap.get(key)`. */
  function AsMap(v: Option<Value>, key: string): Result<Option<OMap<string, Value>>, BuildFailure> {
    match v
    case None => Success(None)
    case Some(Null) => Success(None)
    case Some(Object(m)) => Success(Some(m))
    case Some(_) => Failure(ClassCast(key))
  }

  /** `(List) requestMap.get(key)`. */
  function AsList(v: Option<Value>, key: string): Result<Option<seq<Value>>, BuildFailure> {
    match v
    case None => Success(None)
    case Some(Null) => Success(None)
    case Some(List(items)) => Success(Some(items))
    case Some(_) => Failure(ClassCast(key))
  }

  /** The four parts of the translator's map that `raw()` casts and reads;
      `None` stands for `null`. */
  datatype Parts = Parts(
    meta: Option<OMap<string, Value>>,
    errors: Option<seq<Value>>,
    warnings: Option<seq<Value>>,
    messages: Option<seq<Value>>)

  /** The four casts, in source order. */
  function ReadParts(rm: RequestMap): Result<Parts, BuildFailure> {
    var meta :- AsMap(Get(rm, "meta"), "meta");
    var errors :- AsList(Get(rm, "errors"), "errors");
    var warnings :- AsList(Get(rm, "warnings"), "warnings");
    var messages :- AsList(Get(rm, "messages"), "messages");
    Success(Parts(meta, errors, warnings, messages))
  }

  /** A collection that `collection != null` lets through: both an absent
      value and a stored JSON `null` are Java's `null`. */
  predicate IsSet(collection: Option<Value>) {
    collection.Some? && !collection.value.Null?
  }

  /** `requestMap.put("collection", collection)` when a collection is set. */
  function AttachCollection(rm: RequestMap, collection: Option<Value>): RequestMap {
    if IsSet(collection) then Put(rm, "collection", collection.value) else rm
  }

  /** `meta.putAll(this.meta); requestMap.put("meta", meta)` when the caller
      supplied metadata; a missing translator map is a `NullPointer`. */
  function OverlayMeta(rm: RequestMap, own: Option<OMap<string, Value>>, caller: Option<OMap<string, Value>>)
    : Result<RequestMap, BuildFailure>
  {
    if caller.None? then Success(rm)
    else if own.None? then Failure(NullPointer("meta"))
    else Success(Put(rm, "meta", Object(PutAll(own.value, caller.value))))
  }

  /** `list.addAll(this.list); requestMap.put(key, list)` when the collection
      supplied that list; a missing translator list is a `NullPointer`. */
  function AppendList(rm: RequestMap, key: string, own: Option<seq<Value>>, extra: Option<seq<Value>>)
    : Result<RequestMap, BuildFailure>
  {
    if extra.None? then Success(rm)
    else if own.None? then Failure(NullPointer(key))
    else Success(Put(rm, key, List(own.value + extra.value)))
  }

  /** The merge of `raw()` once the casts have succeeded, in source order. */
  function MergeParts(s: Serializer, rm: RequestMap, p: Parts): Result<RequestMap, BuildFailure> {
    var m :- OverlayMeta(AttachCollection(rm, s.collection), p.meta, s.meta);
    var e :- AppendList(m, "errors", p.errors, s.errors);
    var w :- AppendList(e, "warnings", p.warnings, s.warnings);
    AppendList(w, "messages", p.messages, s.messages)
  }

  lemma PartKeysDistinct()
    ensures "collection" != "meta" && "collection" != "errors" && "collection" != "warnings" && "collection" != "messages"
    ensures "meta" != "errors" && "meta" != "warnings" && "meta" != "messages"
    ensures "errors" != "warnings" && "errors" != "messages" && "warnings" != "messages"
  {
    assert "collection"[0] != "meta"[0] && "collection"[0] != "errors"[0];
    assert "collection"[0] != "warnings"[0] && "collection"[0] != "messages"[0];
    assert "meta"[2] != "messages"[2];
  }

  /** `build()` / `raw()`. */
  function Build(s: Serializer): (r: Result<RequestMap, BuildFailure>)
    ensures s.ast.None? ==> r == Success([])
  {
    if s.ast.None? then Success([])
    else
      var p :- ReadParts(s.ast.value);
      MergeParts(s, s.ast.value, p)
  }

  /** The translator's own metadata map, when it is one. */
  function TranslatorMeta(rm: RequestMap): Option<OMap<string, Value>> {
    var v := Get(rm, "meta");
    if v.Some? && v.value.Object? then Some(v.value.fields) else None
  }

  /** The translator's own diagnostics list under `key`, when it is one. */
  function TranslatorList(rm: RequestMap, key: string): Option<seq<Value>> {
    var v := Get(rm, key);
    if v.Some? && v.value.List? then Some(v.value.items) else None
  }

  /** The value under `key` is absent, `null` or of the kind the cast
      expects. */
  predicate CastsToMap(rm: RequestMap, key: string) {
    Get(rm, key).None? || Get(rm, key).value.Null? || Get(rm, key).value.Object?
  }

  predicate CastsToList(rm: RequestMap, key: string) {
    Get(rm, key).None? || Get(rm, key).value.Null? || Get(rm, key).value.List?
  }

  /** The translator's map can be merged with what the serializer holds: all
      four casts succeed, and every part the serializer adds to is present. */
  predicate Mergeable(s: Serializer, rm: RequestMap) {
    && CastsToMap(rm, "meta")
    && CastsToList(rm, "errors") && CastsToList(rm, "warnings") && CastsToList(rm, "messages")
    && (s.meta.Some? ==> TranslatorMeta(rm).Some?)
    && (s.errors.Some? ==> TranslatorList(rm, "errors").Some?)
    && (s.warnings.Some? ==> TranslatorList(rm, "warnings").Some?)
    && (s.messages.Some? ==> TranslatorList(rm, "messages").Some?)
  }

  /** The entry the response holds under `k`, stated independently of the
      merge steps: each of the five parts the serializer owns is replaced as
      `raw()` promises, and every other key keeps the translator's value. */
  function MergedEntry(s: Serializer, rm: RequestMap, k: string): Option<Value> {
    if k == "collection" && IsSet(s.collection) then s.collection
    else if k == "meta" && s.meta.Some? then Some(Object(PutAll(TranslatorMeta(rm).GetOr([]), s.meta.value)))
    else if k == "errors" && s.errors.Some? then Some(List(TranslatorList(rm, "errors").GetOr([]) + s.errors.value))
    else if k == "warnings" && s.warnings.Some? then Some(List(TranslatorList(rm, "warnings").GetOr([]) + s.warnings.value))
    else if k == "messages" && s.messages.Some? then Some(List(TranslatorList(rm, "messages").GetOr([]) + s.messages.value))
    else Get(rm, k)
  }

  /** The four casts succeed exactly when each value is absent, `null` or of
      the expected kind, and then they read the translator's parts. */
  lemma ReadPartsCasts(rm: RequestMap)
    ensures ReadParts(rm).Success? <==>
      CastsToMap(rm, "meta") && CastsToList(rm, "errors") && CastsToList(rm, "warnings") && CastsToList(rm, "messages")
    ensures ReadParts(rm).Success? ==>
      ReadParts(rm).value == Parts(TranslatorMeta(rm), TranslatorList(rm, "errors"),
                                   TranslatorList(rm, "warnings"), TranslatorList(rm, "messages"))
  {
  }

  /** The merge fails exactly on a part the serializer adds to but the
      translator left out. */
  lemma MergePartsSucceeds(s: Serializer, rm: RequestMap, p: Parts)
    ensures MergeParts(s, rm, p).Success? <==>
      && (s.meta.None? || p.meta.Some?)
      && (s.errors.None? || p.errors.Some?)
      && (s.warnings.None? || p.warnings.Some?)
      && (s.messages.None? || p.messages.Some?)
  {
  }

  /** The intermediate maps of a successful `build()`. This only names the
      steps of `Build` for the proofs; `BuildEntry` and the lemmas after it
      state what `build()` returns. */
  lemma BuildStages(s: Serializer) returns (p: Parts, c: RequestMap, m: RequestMap, e: RequestMap, w: RequestMap)
    requires s.ast.Some? && Build(s).Success?
    ensures ReadParts(s.ast.value) == Success(p)
    ensures c == AttachCollection(s.ast.value, s.collection)
    ensures OverlayMeta(c, p.meta, s.meta) == Success(m)
    ensures AppendList(m, "errors", p.errors, s.errors) == Success(e)
    ensures AppendList(e, "warnings", p.warnings, s.warnings) == Success(w)
    ensures AppendList(w, "messages", p.messages, s.messages) == Success(Build(s).value)
  {
    p := ReadParts(s.ast.value).value;
    c := AttachCollection(s.ast.value, s.collection);
    m := OverlayMeta(c, p.meta, s.meta).value;
    e := AppendList(m, "errors", p.errors, s.errors).value;
    w := AppendList(e, "warnings", p.warnings, s.warnings).value;
  }

  lemma AttachCollectionGet(rm: RequestMap, collection: Option<Value>, k: string)
    ensures Get(AttachCollection(rm, collection), k)
         == if k == "collection" && IsSet(collection) then collection else Get(rm, k)
  {
  }

  lemma OverlayMetaGet(rm: RequestMap, own: Option<OMap<string, Value>>, caller: Option<OMap<string, Value>>, k: string)
    requires OverlayMeta(rm, own, caller).Success?
    ensures Get(OverlayMeta(rm, own, caller).value, k)
         == if k == "meta" && caller.Some? then Some(Object(PutAll(own.value, caller.value))) else Get(rm, k)
  {
  }

  lemma AppendListGet(rm: RequestMap, key: string, own: Option<seq<Value>>, extra: Option<seq<Value>>, k: string)
    requires AppendList(rm, key, own, extra).Success?
    ensures Get(AppendList(rm, key, own, extra).value, k)
         == if k == key && extra.Some? then Some(List(own.value + extra.value)) else Get(rm, k)
  {
  }

  /** Once a query is set, `build()` fails exactly when the translator's map
      cannot be merged. */
  lemma BuildSucceedsIffMergeable(s: Serializer)
    requires s.ast.Some?
    ensures Build(s).Success? <==> Mergeable(s, s.ast.value)
  {
    ReadPartsCasts(s.ast.value);
    if ReadParts(s.ast.value).Success? {
      MergePartsSucceeds(s, s.ast.value, ReadParts(s.ast.value).value);
    }
  }

  /** Every entry of a successful `build()` is the merged entry: the
      response agrees with the reference definition key by key. */
  lemma BuildEntry(s: Serializer, k: string)
    requires s.ast.Some? && Build(s).Success?
    ensures Get(Build(s).value, k) == MergedEntry(s, s.ast.value, k)
  {
    var rm := s.ast.value;
    var p, c, m, e, w := BuildStages(s);
    ReadPartsCasts(rm);
    PartKeysDistinct();
    AttachCollectionGet(rm, s.collection, k);
    OverlayMetaGet(c, p.meta, s.meta, k);
    AppendListGet(m, "errors", p.errors, s.errors, k);
    AppendListGet(e, "warnings", p.warnings, s.warnings, k);
    AppendListGet(w, "messages", p.messages, s.messages, k);
  }

  /** The collection is attached when it is set and not `null`; otherwise
      the translator's entry, if any, stays. */
  lemma BuildAttachesCollection(s: Serializer)
    requires s.ast.Some? && Build(s).Success?
    ensures Get(Build(s).value, "collection")
         == if IsSet(s.collection) then s.collection else Get(s.ast.value, "collection")
  {
    BuildEntry(s, "collection");
  }

  /** When the caller supplied metadata, the response's `meta` is the
      translator's metadata with the caller's entries put over it; otherwise
      it is the translator's entry unchanged. */
  lemma BuildOverlaysMeta(s: Serializer)
    requires s.ast.Some? && Build(s).Success?
    ensures s.meta.Some? ==>
      && TranslatorMeta(s.ast.value).Some?
      && Get(Build(s).value, "meta") == Some(Object(PutAll(TranslatorMeta(s.ast.value).value, s.meta.value)))
    ensures s.meta.None? ==> Get(Build(s).value, "meta") == Get(s.ast.value, "meta")
  {
    BuildSucceedsIffMergeable(s);
    BuildEntry(s, "meta");
    PartKeysDistinct();
  }

  /** In the merged metadata the caller wins on every key it supplied, and
      every other key of the translator survives with its value. */
  lemma CallerMetaWins(s: Serializer, k: string)
    requires s.ast.Some? && Build(s).Success? && s.meta.Some? && Unique(s.meta.value)
    ensures TranslatorMeta(s.ast.value).Some?
    ensures Get(PutAll(TranslatorMeta(s.ast.value).value, s.meta.value), k)
         == if k in Keys(s.meta.value) then Get(s.meta.value, k) else Get(TranslatorMeta(s.ast.value).value, k)
  {
    BuildSucceedsIffMergeable(s);
    PutAllOverlays(TranslatorMeta(s.ast.value).value, s.meta.value, k);
  }

  /** The collection's diagnostics come after the translator's own, in order,
      in each of the three lists. */
  lemma BuildAppendsDiagnostics(s: Serializer)
    requires s.ast.Some? && Build(s).Success?
    ensures var rm, out := s.ast.value, Build(s).value;
      && (s.errors.Some? ==> TranslatorList(rm, "errors").Some?)
      && Get(out, "errors") == (if s.errors.Some? then Some(List(TranslatorList(rm, "errors").value + s.errors.value)) else Get(rm, "errors"))
    ensures var rm, out := s.ast.value, Build(s).value;
      && (s.warnings.Some? ==> TranslatorList(rm, "warnings").Some?)
      && Get(out, "warnings") == (if s.warnings.Some? then Some(List(TranslatorList(rm, "warnings").value + s.warnings.value)) else Get(rm, "warnings"))
    ensures var rm, out := s.ast.value, Build(s).value;
      && (s.messages.Some? ==> TranslatorList(rm, "messages").Some?)
      && Get(out, "messages") == (if s.messages.Some? then Some(List(TranslatorList(rm, "messages").value + s.messages.value)) else Get(rm, "messages"))
  {
    BuildSucceedsIffMergeable(s);
    PartKeysDistinct();
    BuildEntry(s, "errors");
    BuildEntry(s, "warnings");
    BuildEntry(s, "messages");
  }

  /** Every other entry of the translator's map passes through unchanged. */
  lemma BuildKeepsOtherEntries(s: Serializer, k: string)
    requires s.ast.Some? && Build(s).Success?
    requires k != "collection" && k != "meta" && k != "errors" && k != "warnings" && k != "messages"
    ensures Get(Build(s).value, k) == Get(s.ast.value, k)
  {
    BuildEntry(s, k);
  }

  /** No key of the translator's map moves, and the only key `build()` can
      add is `collection`, at the end: the other four parts are replaced only
      when the translator already had them. */
  lemma BuildKeepsKeyOrder(s: Serializer)
    requires s.ast.Some? && Build(s).Success?
    ensures Keys(s.ast.value) <= Keys(Build(s).value)
    ensures Keys(Build(s).value) == Keys(s.ast.value)
         || Keys(Build(s).value) == Keys(s.ast.value) + ["collection"]
  {
    var rm := s.ast.value;
    var p, c, m, e, w := BuildStages(s);
    ReadPartsCasts(rm);
    PartKeysDistinct();
    if IsSet(s.collection) {
      PutKeys(rm, "collection", s.collection.value);
    }
    AttachCollectionGet(rm, s.collection, "meta");
    OverlayMetaKeys(c, p.meta, s.meta);
    AttachCollectionGet(rm, s.collection, "errors");
    OverlayMetaGet(c, p.meta, s.meta, "errors");
    AppendListKeys(m, "errors", p.errors, s.errors);
    AttachCollectionGet(rm, s.collection, "warnings");
    OverlayMetaGet(c, p.meta, s.meta, "warnings");
    AppendListGet(m, "errors", p.errors, s.errors, "warnings");
    AppendListKeys(e, "warnings", p.warnings, s.warnings);
    AttachCollectionGet(rm, s.collection, "messages");
    OverlayMetaGet(c, p.meta, s.meta, "messages");
    AppendListGet(m, "errors", p.errors, s.errors, "messages");
    AppendListGet(e, "warnings", p.warnings, s.warnings, "messages");
    AppendListKeys(w, "messages", p.messages, s.messages);
  }

  lemma OverlayMetaKeys(rm: RequestMap, own: Option<OMap<string, Value>>, caller: Option<OMap<string, Value>>)
    requires OverlayMeta(rm, own, caller).Success?
    requires caller.Some? ==> Get(rm, "meta").Some?
    ensures Keys(OverlayMeta(rm, own, caller).value) == Keys(rm)
  {
    if caller.Some? {
      GetSomeIffKey(rm, "meta");
      PutKeys(rm, "meta", Object(PutAll(own.value, caller.value)));
    }
  }

  lemma AppendListKeys(rm: RequestMap, key: string, own: Option<seq<Value>>, extra: Option<seq<Value>>)
    requires AppendList(rm, key, own, extra).Success?
    requires extra.Some? ==> Get(rm, key).Some?
    ensures Keys(AppendList(rm, key, own, extra).value) == Keys(rm)
  {
    if extra.Some? {
      GetSomeIffKey(rm, key);
      PutKeys(rm, key, List(own.value + extra.value));
    }
  }

  /** `addMeta(cli, cri, cls, crs, num, pageIndex)`: the left size is `cls`
      with unit `cli`, the right size `crs` with unit `cri`. */
  function AddMetaWindow(s: Serializer, cli: string, cri: string, cls: int, crs: int, num: int, pageIndex: int)
    : (r: Serializer)
    ensures r == s.(meta := Some([("startIndex", Int(pageIndex)), ("count", Int(num)),
                                  ("context", ContextValue(Window(cls, cli, crs, cri)))]))
  {
    var b := SetSpanContextWindow(NewBuilder(), cls, cli, crs, cri);
    var b1 := AddEntry(b, "startIndex", Int(pageIndex));
    var b2 := AddEntry(b1, "count", Int(num));
    FreshBuilderEntries(Int(pageIndex), Int(num), Window(cls, cli, crs, cri));
    s.(meta := Some(Raw(b2)))
  }

  /** A fresh builder given `startIndex`, `count` and a context reads out in
      that order. */
  lemma FreshBuilderEntries(start: Value, count: Value, sc: SpanContext)
    ensures Raw(Builder(Put(Put([], "startIndex", start), "count", count), Some(sc)))
         == [("startIndex", start), ("count", count), ("context", ContextValue(sc))]
  {
    var m0: OMap<string, Value> := [];
    var cv := ContextValue(sc);
    PutNew(m0, "startIndex", start);
    var m1 := [("startIndex", start)];
    assert Keys(m1) == ["startIndex"];
    assert "count" != "startIndex";
    PutNew(m1, "count", count);
    var m2 := [("startIndex", start), ("count", count)];
    assert Keys(m2) == ["startIndex", "count"];
    assert "context" != "startIndex" && "context" != "count" by {
      assert "context"[2] != "startIndex"[2];
      assert "context"[2] != "count"[2];
    }
    PutAllOne(m2, "context", cv);
    PutNew(m2, "context", cv);
    assert Raw(Builder(m2, Some(sc))) == PutAll(m2, [("context", cv)]);
  }

  /** `addMeta(context, num, pageidx)`: throws what `setSpanContext` throws,
      leaving the serializer as it was. */
  function AddMetaContext(s: Serializer, context: string, num: int, pageidx: int): (r: Result<Serializer, SpecError>)
    ensures r.Success? <==> ParseContextSpec(context).Success?
    ensures r.Failure? ==> r.error == ParseContextSpec(context).error
    ensures r.Success? ==>
      r.value == s.(meta := Some([("startIndex", Int(pageidx)), ("count", Int(num)),
                                  ("context", ContextValue(ParseContextSpec(context).value))]))
  {
    var b := AddEntry(NewBuilder(), "startIndex", Int(pageidx));
    var b1 := AddEntry(b, "count", Int(num));
    var b2 :- SetSpanContext(b1, context);
    FreshBuilderEntries(Int(pageidx), Int(num), ParseContextSpec(context).value);
    Success(s.(meta := Some(Raw(b2))))
  }

  /** `addMeta(builder)`: the builder's map, read out with its context, is
      the caller's metadata; a builder without duplicate keys gives a map
      without duplicate keys, so `CallerMetaWins` applies to it. */
  function AddMetaBuilder(s: Serializer, b: Builder): (r: Serializer)
    ensures r.meta.Some? && r == s.(meta := r.meta)
    ensures b.spanContext.Some? ==> Get(r.meta.value, "context") == Some(ContextValue(b.spanContext.value))
    ensures Keys(b.meta) <= Keys(r.meta.value)
    ensures Unique(b.meta) ==> Unique(r.meta.value)
  {
    assert Unique(b.meta) ==> Unique(Raw(b)) by {
      if Unique(b.meta) {
        RawKeepsUnique(b);
      }
    }
    s.(meta := Some(Raw(b)))
  }

  /** One call of an `addMeta` overload. */
  datatype MetaCall =
    | MetaWindow(cli: string, cri: string, cls: int, crs: int, num: int, pageIndex: int)
    | MetaContext(context: string, cnum: int, pageidx: int)
    | MetaBuilder(builder: Builder)

  function ApplyMetaCall(s: Serializer, c: MetaCall): Result<Serializer, SpecError> {
    match c
    case MetaWindow(cli, cri, cls, crs, num, pageIndex) => Success(AddMetaWindow(s, cli, cri, cls, crs, num, pageIndex))
    case MetaContext(context, num, pageidx) => AddMetaContext(s, context, num, pageidx)
    case MetaBuilder(b) => Success(AddMetaBuilder(s, b))
  }

  /** The calls applied in order, stopping at the first exception. */
  function ApplyMetaCalls(s: Serializer, cs: seq<MetaCall>): Result<Serializer, SpecError>
    decreases |cs|
  {
    if |cs| == 0 then Success(s)
    else
      var s1 :- ApplyMetaCall(s, cs[0]);
      ApplyMetaCalls(s1, cs[1..])
  }

  /** The metadata map one call installs, built on a fresh builder. */
  function MetaOfCall(c: MetaCall): Result<OMap<string, Value>, SpecError> {
    match c
    case MetaWindow(cli, cri, cls, crs, num, pageIndex) =>
      Success([("startIndex", Int(pageIndex)), ("count", Int(num)), ("context", ContextValue(Window(cls, cli, crs, cri)))])
    case MetaContext(context, num, pageidx) =>
      var sc :- ParseContextSpec(context);
      Success([("startIndex", Int(pageidx)), ("count", Int(num)), ("context", ContextValue(sc))])
    case MetaBuilder(b) => Success(Raw(b))
  }

  /** Every `addMeta` replaces the stored metadata wholesale: after any
      sequence of calls the last one alone decides it, and nothing else
      changes. */
  lemma {:induction false} LastAddMetaWins(s: Serializer, cs: seq<MetaCall>)
    requires |cs| > 0 && ApplyMetaCalls(s, cs).Success?
    ensures MetaOfCall(cs[|cs| - 1]).Success?
    ensures ApplyMetaCalls(s, cs).value == s.(meta := Some(MetaOfCall(cs[|cs| - 1]).value))
    decreases |cs|
  {
    var s1 := ApplyMetaCall(s, cs[0]).value;
    if |cs| > 1 {
      LastAddMetaWins(s1, cs[1..]);
      assert cs[1..][|cs[1..]| - 1] == cs[|cs| - 1];
    }
  }

  /** `setCollection(String)`: the collection translator's filter and its
      three diagnostics lists replace the stored ones; an exception leaves the
      serializer as it was. */
  function SetCollection(s: Serializer, collect: CollectionTranslator, text: string): (r: Result<Serializer, Thrown>)
    ensures r.Failure? <==> collect(text).Failure?
    ensures r.Failure? ==> r.error == collect(text).error
    ensures r.Success? ==> r.value.ast == s.ast && r.value.meta == s.meta
    ensures r.Success? ==>
      && r.value.collection == collect(text).value.collection
      && r.value.errors == collect(text).value.errors
      && r.value.warnings == collect(text).value.warnings
      && r.value.messages == collect(text).value.messages
  {
    match collect(text)
    case Failure(t) => Failure(t)
    case Success(cr) =>
      Success(s.(collection := cr.collection, errors := cr.errors, warnings := cr.warnings, messages := cr.messages))
  }

  /** `setCollection(CollectionQueryBuilder2)` and `setDeprCollection`: only
      the filter changes. */
  function SetBuiltCollection(s: Serializer, collection: Value): (r: Serializer)
    ensures r.collection == Some(collection)
    ensures r.ast == s.ast && r.meta == s.meta
    ensures r.errors == s.errors && r.warnings == s.warnings && r.messages == s.messages
  {
    s.(collection := Some(collection))
  }

  /** After `setQuery` and `setCollection(String)`, `build()` carries the
      collection translator's filter, when it gave one, and each diagnostics
      list is the query translator's list followed by the collection
      translator's. */
  lemma SetCollectionThenBuild(s: Serializer, translate: Translator, query: Option<string>, ql: Option<string>,
                               version: Option<string>, collect: CollectionTranslator, text: string)
    requires SetQuery(s, translate, query, ql, version).Success?
    requires SetCollection(SetQuery(s, translate, query, ql, version).value, collect, text).Success?
    requires Build(SetCollection(SetQuery(s, translate, query, ql, version).value, collect, text).value).Success?
    ensures var rm := SetQuery(s, translate, query, ql, version).value.ast.value;
      var cr := collect(text).value;
      var out := Build(SetCollection(SetQuery(s, translate, query, ql, version).value, collect, text).value).value;
      && Get(out, "collection") == (if IsSet(cr.collection) then cr.collection else Get(rm, "collection"))
      && (cr.errors.Some? ==> Get(out, "errors") == Some(List(TranslatorList(rm, "errors").value + cr.errors.value)))
      && (cr.warnings.Some? ==> Get(out, "warnings") == Some(List(TranslatorList(rm, "warnings").value + cr.warnings.value)))
      && (cr.messages.Some? ==> Get(out, "messages") == Some(List(TranslatorList(rm, "messages").value + cr.messages.value)))
  {
    var s1 := SetQuery(s, translate, query, ql, version).value;
    var s2 := SetCollection(s1, collect, text).value;
    BuildSucceedsIffMergeable(s2);
    PartKeysDistinct();
    BuildEntry(s2, "collection");
    BuildEntry(s2, "errors");
    BuildEntry(s2, "warnings");
    BuildEntry(s2, "messages");
  }

  /** Setting the query and setting the collection commute, so the collection
      diagnostics follow the translator's whatever the call order. */
  lemma QueryAndCollectionCommute(s: Serializer, translate: Translator, query: Option<string>, ql: Option<string>,
                                  version: Option<string>, collect: CollectionTranslator, text: string)
    requires SetQuery(s, translate, query, ql, version).Success?
    requires SetCollection(s, collect, text).Success?
    ensures SetQuery(SetCollection(s, collect, text).value, translate, query, ql, version).Success?
    ensures SetCollection(SetQuery(s, translate, query, ql, version).value, collect, text).Success?
    ensures SetQuery(SetCollection(s, collect, text).value, translate, query, ql, version).value
         == SetCollection(SetQuery(s, translate, query, ql, version).value, collect, text).value
  {
  }

  /** A collection from a builder replaces the filter but keeps the
      diagnostics an earlier `setCollection(String)` stored, and they are
      still appended to the response. */
  lemma BuiltCollectionKeepsDiagnostics(s: Serializer, collection: Value)
    requires s.ast.Some? && Build(SetBuiltCollection(s, collection)).Success?
    ensures Build(s).Success?
    ensures var out := Build(SetBuiltCollection(s, collection)).value;
      && Get(out, "collection") == (if collection.Null? then Get(s.ast.value, "collection") else Some(collection))
      && Get(out, "errors") == Get(Build(s).value, "errors")
      && Get(out, "warnings") == Get(Build(s).value, "warnings")
      && Get(out, "messages") == Get(Build(s).value, "messages")
  {
    var s' := SetBuiltCollection(s, collection);
    BuildSucceedsIffMergeable(s');
    BuildSucceedsIffMergeable(s);
    PartKeysDistinct();
    BuildEntry(s', "collection");
    BuildEntry(s', "errors");
    BuildEntry(s, "errors");
    BuildEntry(s', "warnings");
    BuildEntry(s, "warnings");
    BuildEntry(s', "messages");
    BuildEntry(s, "messages");
  }
}

=== FILE: wrappers.dfy ===
/** Failure-compatible wrappers: `Option` stands for a Java reference that may be
    null, `Result` for a call that either returns or throws. */
module Wrappers {

  datatype Option<+T> = None | Some(value: T) {

    predicate IsFailure() {
      None?
    }

    function PropagateFailure<U>(): Option<U>
      requires None?
    {
      None
    }

    function Extract(): T
      requires Some?
    {
      value
    }

    function GetOr(default: T): T {
      if Some? then value else default
    }
  }

  datatype Result<+R, +E> = Success(value: R) | Failure(error: E) {

    predicate IsFailure() {
      Failure?
    }

    function PropagateFailure<U>(): Result<U, E>
      requires Failure?
    {
      Failure(error)
    }

    function Extract(): R
      requires Success?
    {
      value
    }
  }
}
